=== FILE: README.md ===
# Textbook RSA teaching tool — verified model of its number-theoretic core

The tool generates an RSA key pair from two small primes, encrypts a text
message one UTF-16 code unit at a time, and decrypts the resulting array of
integers back into text. Its core consists of:

- five integer routines in `lib/rsa-utils.ts`:
  - `isPrime`: trial division;
  - `generatePrime`: rejection sampling from a range;
  - `gcd`: iterative Euclid;
  - `modInverse`: iterative extended Euclid;
  - `modPow`: square-and-multiply;
- the key-generation procedure `generateKeys` in `components/key-generator.tsx`, which:
  - draws primes p and q, or validates the user's;
  - forms n = p·q and phi = (p−1)(q−1);
  - keeps e = 65537 unless it shares a factor with phi, and otherwise redraws e from [3, phi−1];
  - sets d = modInverse(e, phi);
- the `encrypt` and `decrypt` procedures of `components/encryptor.tsx` and `components/decryptor.tsx`. Each computes c^k mod n per character by k repeated multiply-and-reduce steps, not through `modPow`.

The operations are the textbook RSA primitives RSAEP and RSADP of section
5.1 of RFC 8017, without the range check on the message representative.

## How the model is built

JavaScript semantics are modelled as follows:

- **Numbers.** A JavaScript `number` is an unbounded `int`. JavaScript's `%` is the truncated remainder, which carries the sign of the dividend. It is modelled by `Arithmetic.JsRem`. A zero modulus gives NaN, so the exponentiation loops compute in `ModularPower.Num`, which is an integer or NaN.
- **Randomness.** `Math.random()` is an oracle: a finite sequence of draws in [0, 1). The sampling loops report that the draws ran out (`None`, `OutOfDraws`) where the source would keep drawing.
- **Parsing.** `Number.parseInt` results are `Option<int>`, where `None` is NaN. What `JSON.parse` yields is `Decryptor.Parsed`.
- **Strings.** Strings are sequences of code units, `CodeUnits.CodeUnit`.

The loop-bearing routines are methods that mirror the source's loops:

- `IsPrime`, `GeneratePrime`, `ModInverse`, `ModPow`, `RepeatedMultiply`, `GenerateKeys`, `Encrypt` and `Decrypt`.
- Each carries its loop invariants.
- Each is tied to an independent reference: primality (`Primality.Prime`), divisibility (`Arithmetic.Divides`), the closed-form power `ModularPower.PowRem`, and the per-character maps `EncryptCodes` and `DecryptCodes`.

RSA correctness is proved from first principles in this chain:

1. Bezout coefficients.
2. Euclid's lemma.
3. The binomial theorem.
4. Fermat's little theorem.
5. Combining the two prime factors.

It is then carried through the code paths:

- a message whose code units are all below n survives `Encrypt` followed by `Decrypt` with a generated key pair of two distinct primes;
- with two equal primes, which auto mode can draw, the round trip is not guaranteed: the message whose code is p comes back as 0 (as 1 when p = 2).

Behaviour of the code worth knowing, which the model states:

- **Per-character exponentiation.** The components do not call `modPow`; they use their own loop of repeated multiply-and-reduce steps. `ModularPower.CompareWithNaive` shows the two agree for every modulus except 1. With modulus 1 and an exponent ≤ 0, `modPow` gives 0 and the naive loop gives 1.
- **Redrawing e.** 65537 is tried first and is prime, so e is redrawn only when 65537 divides phi, which needs phi ≥ 65537 (`KeyGenerator.DefaultExponentCoprime`). Small totients never reach the redraw loop, and in auto mode, where p and q lie in [100, 1000], e is always 65537 (`KeyGenerator.DefaultExponentKept`).
- **e can exceed phi.** The comment at components/key-generator.tsx:132 asks for 1 < e < phi, but 65537 is kept whenever it is coprime to phi, even for phi < 65537. For p = 101 and q = 103, phi = 10200 and e = 65537 (`KeyGenerator.ExponentAbovePhi`). Decryption is unaffected, since d still inverts e modulo phi.
- **Empty ciphertext.** Only empty input text is rejected, so `[]` decrypts to the empty message (`Decryptor.Decrypt`).
- **Entry range.** With e ≥ 1 and n ≥ 1 every ciphertext entry lies in [0, n) (`Encryptor.EncryptedRange`). With e ≤ 0 each entry is 1, even for n = 1 (`Encryptor.EncryptedRange`). With n = 0 and e ≥ 1 each entry is NaN (`ModularPower.RepeatedMultiply`).
- **Equal primes.** Auto mode can draw p = q, and then the round trip is not guaranteed: the message whose code is p comes back as 0, or as 1 when p = 2 (`RoundTrip.EqualPrimesLoseMessage`).

## Model

| member | source | states |
|---|---|---|
| `Primality.IsPrime` | lib/rsa-utils.ts:2-8 | The answer is false below 2 and, in general, true exactly when the number is prime. Trial division up to the square root (`i * i <= num`) decides primality. |
| `Primality.TrialDivisionSuffices` | lib/rsa-utils.ts:4-7 | A number ≥ 2 with no divisor i where 2 ≤ i and i·i ≤ n has no divisor at all strictly between 1 and n. |
| `Primality.CandidateInRange` | lib/rsa-utils.ts:12 | `floor(r·(max−min+1)) + min` lies in [min, max] for every draw r in [0, 1) when min ≤ max. |
| `Primality.GeneratePrime` | lib/rsa-utils.ts:11-17 | If it returns, the value is the candidate of the last draw used, and every earlier candidate was rejected; it returns exactly when some draw's candidate is prime, and stops at the first such draw (`FirstPrimeIndex`). The value is prime and lies in [min, max] when min ≤ max. If it does not return, every supplied draw gave a non-prime candidate. |
| `Primality.Prime65537` | components/key-generator.tsx:133 | The default public exponent 65537 is prime. |
| `Euclid.Gcd` | lib/rsa-utils.ts:20-27 | The result divides both arguments, and every common divisor divides it. It is non-negative for non-negative arguments, and gcd(a, 0) = a. This holds for all signs under JavaScript's `%`. |
| `Euclid.GcdCommutes` | lib/rsa-utils.ts:21-25 | For a, b > 0 the result is positive and does not depend on argument order. |
| `Euclid.Bezout` | lib/rsa-utils.ts:37-50 | Coefficients x, y with a·x + b·y = gcd(a, b) exist for a, b ≥ 0. |
| `Euclid.ExtendedStep` | lib/rsa-utils.ts:37-50 | One loop iteration keeps the quotient/remainder pair exact and the coefficients of opposite signs. It keeps the weighted sizes of the coefficients summing to the original phi, and each coefficient times e congruent to its remainder. |
| `Euclid.NormaliseInverse` | lib/rsa-utils.ts:52-55 | A coefficient of size ≤ phi that inverts e, shifted by phi when negative, lies in [0, phi) and still inverts e. |
| `Euclid.ModInverse` | lib/rsa-utils.ts:30-56 | modInverse(e, 1) = 0. For phi > 1, e ≥ 1 and gcd(e, phi) = 1, the result d satisfies 0 ≤ d < phi and e·d mod phi = 1. The loop's division is never by zero. |
| `ModularPower.PowRemRange` | lib/rsa-utils.ts:59-77 | For c ≥ 0, n ≥ 1 and k ≥ 1, the reference power under JavaScript's `%` is the ordinary c^k mod n, in [0, n). |
| `ModularPower.SquareStep` | lib/rsa-utils.ts:65-74 | One square-and-multiply iteration preserves result·base^exponent modulo m. |
| `ModularPower.ModPow` | lib/rsa-utils.ts:59-77 | modPow(b, x, 1) = 0. For any other modulus the result is the reference power: NaN for modulus 0 with x > 0, and 1 for x ≤ 0. For m > 1, b ≥ 0, x ≥ 0 it is b^x mod m, in [0, m). |
| `ModularPower.RepeatedMultiply` | components/encryptor.tsx:64-68 | k multiply-and-reduce steps from 1 give the reference power c^k. That is 1 when k ≤ 0, NaN when n = 0, and c^k mod n in [0, n) when c ≥ 0, n ≥ 1, k ≥ 1. |
| `ModularPower.CompareWithNaive` | components/decryptor.tsx:75-78 | The naive loop and `modPow` agree for every modulus except 1. For modulus 1 they differ exactly when the exponent is ≤ 0. |
| `CodeUnits.FromCharCode` | components/decryptor.tsx:80 | NaN becomes code 0. An integer becomes a code unit congruent to it modulo 2^16, which is the integer itself when it is already in [0, 65536). |
| `KeyGenerator.PhiOfPrimes` | components/key-generator.tsx:130 | phi of two primes is ≥ 1. It is 1 exactly when p = q = 2, and ≥ 2 when p ≠ q. |
| `KeyGenerator.DefaultExponentCoprime` | components/key-generator.tsx:133-136 | For phi ≥ 1, 65537 fails to be coprime to phi exactly when it divides phi. phi is then ≥ 65537. |
| `KeyGenerator.GenerateKeys` | components/key-generator.tsx:105-152 | Errors: in manual mode, an unparseable p or q fails with the invalid-numbers error, and a non-prime p or q fails with the not-prime error. Only manual mode fails. Auto mode succeeds exactly when the draws contain a prime candidate for p and, after it, one for q; p and q are those first prime candidates, and otherwise the draws run out. On success: both primes are prime, in [100, 1000] in auto mode, and equal to the user's inputs in manual mode. Both keys share n = p·q. e is coprime to phi, and is 65537 or from [3, phi−1]. An e other than 65537 means 65537 divides phi, and in auto mode e is always 65537. d inverts e modulo phi. Manual prime inputs whose phi is not a multiple of 65537 always succeed with e = 65537; otherwise e is the candidate of the first draw coprime to phi, and without one the draws run out. |
| `KeyGenerator.DrawPrimes` | components/key-generator.tsx:107-108 | The two `generatePrime(100, 1000)` calls give the reference pair: p from the first draw whose candidate is prime, q from the first such draw after it, both in [100, 1000]; nothing when either search fails. |
| `KeyGenerator.ChooseExponent` | components/key-generator.tsx:133-136 | e is 65537 when that is coprime to phi. Otherwise e is the candidate of the first draw coprime to phi, and nothing when no draw is. Any returned e is coprime to phi, and a redrawn e lies in [3, phi−1] for phi ≥ 1. |
| `KeyGenerator.DefaultExponentKept` | components/key-generator.tsx:133-136 | For p and q in [2, 65537], 65537 does not divide (p−1)(q−1), so the first choice e = 65537 is kept and the redraw loop never runs. |
| `KeyGenerator.ExponentAbovePhi` | components/key-generator.tsx:130-136 | Generating keys from p = 101 and q = 103 succeeds with phi = 10200 and e = 65537, so e > phi despite the comment's 1 < e < phi. |
| `Encryptor.EncryptCodes` | components/encryptor.tsx:57-70 | The output has one entry per code unit, in order. Entry i is the reference power of code unit i. |
| `Encryptor.EncryptCodesConcat` | components/encryptor.tsx:57-70 | Encryption distributes over concatenation of messages. |
| `Encryptor.EncryptedRange` | components/encryptor.tsx:64-68 | With e ≥ 1 and n ≥ 1 every entry is an integer in [0, n). With e ≤ 0 every entry is 1. |
| `Encryptor.Encrypt` | components/encryptor.tsx:32-70 | An empty message fails first. A supplied public key is used as it is. Without one, a NaN custom e or n fails with the invalid-numbers error, and otherwise the custom e and n are used. On success the output is the per-character encryption under that key, one entry per code unit. |
| `Decryptor.DecryptCodes` | components/decryptor.tsx:68-81 | The output has one code unit per array element, in order. Element i becomes `fromCharCode` of the reference power of element i. |
| `Decryptor.DecryptCodesConcat` | components/decryptor.tsx:68-81 | Decryption distributes over concatenation of arrays. |
| `Decryptor.Decrypt` | components/decryptor.tsx:32-81 | Failures come in order: empty input text; then, when no private key is supplied, a NaN custom d or n (invalid numbers); then input that is not a JSON array (invalid format). Otherwise the output is the per-element decryption under the supplied key, or else the custom d and n, one code unit per element. |
| `RsaTheory.Fermat` | components/key-generator.tsx:127-139 | a^p ≡ a modulo a prime p, for every a ≥ 0. |
| `RsaTheory.RsaCorrect` | components/key-generator.tsx:127-139 | For distinct primes p, q and e·d ≡ 1 modulo (p−1)(q−1), (m^e mod n)^d mod n = m for every 0 ≤ m < n = p·q. |
| `RsaTheory.RepeatedPrimeLosesMessage` | components/key-generator.tsx:107-108 | With n = p·p and e·d ≥ 2, the message p comes back as 0. |
| `RoundTrip.PowerRoundTrip` | components/decryptor.tsx:75-78 | With distinct primes and inverse exponents, the naive encryption loop yields an integer in [0, n), and the naive decryption loop applied to it returns m, for every 0 ≤ m < n. |
| `RoundTrip.KeysRoundTrip` | components/decryptor.tsx:68-81 | Take a well-formed key pair with p ≠ q and a message whose code units are all below n. Decrypting its encryption, read back as a JSON array of integers, returns the message. |
| `RoundTrip.EncryptThenDecrypt` | components/encryptor.tsx:32-70 | `Encrypt` with the generated public key succeeds on a non-empty message whose code units are all below n. `Decrypt` of its output with the generated private key returns `Success` of the message. |
| `RoundTrip.EqualPrimesLoseMessage` | components/key-generator.tsx:105-108 | For a well-formed key pair with p = q (below 65536), the one-character message with code p does not survive. For p = 2 it decrypts to code 1 (d = 0); for larger p it decrypts to code 0. |

## Left out

- The React shell is not modelled, for the following reasons:
  - `app/page.tsx`, JSX rendering, `useState` wiring, loading flags and error-message display are presentation only.
  - The 500 ms `setTimeout` delays and `async`/`await` carry no logic.
- IEEE-754 behaviour of `number` is not modelled, because JavaScript numbers are taken as unbounded integers:
  - precision loss above 2^53, for example in p·q, e·d or `c * c`;
  - non-integer values;
  - `-0`, which JavaScript's `%` returns for a negative dividend with zero remainder;
  - `Infinity`.
- `Math.sqrt` is modelled as the exact integer bound `i * i <= num`. The float comparison agrees with it for the integers the tool handles.
- The `Number.parseInt` and `JSON.parse` parsers are foreign code. They are represented only by their results:
  - `parseInt` results are already `Option<int>`; partial parses such as `"12abc"` → 12 happen before the model;
  - the decrypted array holds integers only, so strings, floats and `null` elements are not modelled.
- The encryptor's output is not serialised back to text. NaN entries, which `JSON.stringify` writes as `null`, are not carried through the round trip. The round trip only uses n > 1, where every entry is an integer.
- `Math.random()` is a finite oracle sequence of draws. Where the source loops forever (`generatePrime` on a range without primes, or the exponent redraw), the model reports that the draws ran out instead.
- The copies of `isPrime`, `generatePrime`, `gcd` and `modInverse` at components/key-generator.tsx:38-92 match the library versions textually. Each is modelled once, in `Primality` and `Euclid`.
- `Euclid.ModInverse`: the contract covers phi = 1, and phi > 1 with e ≥ 1 coprime to phi, the obligation the source leaves to its caller (`generateKeys` always meets it). For e ≤ 1 the loop does not run and the source returns 1, which is an inverse only when e = 1. When e and phi share a factor the remainder reaches 0, and the next iteration computes `Math.floor(e / 0)` and `e % 0` (Infinity and NaN). Neither of these cases is described by the model.
- Decryption does not reject ciphertext entries ≥ n or messages with code units ≥ n, because the source does not check them. The round-trip lemmas state their requirement that codes be below n instead.

=== FILE: arithmetic.dfy ===
/** Integer facts the RSA model rests on: divisibility, powers, Euclidean
    remainders, and the truncated remainder that JavaScript's `%` computes.
    JavaScript numbers are modelled as unbounded integers throughout. */
module Arithmetic {

  function Abs(x: int): nat {
    if x < 0 then -x else x
  }

  /** `d` divides `x`; zero divides only zero. */
  predicate Divides(d: int, x: int) {
    if d == 0 then x == 0 else x % d == 0
  }

  /** b^k for a natural exponent k. */
  function Pow(b: int, k: nat): int
    decreases k
  {
    if k == 0 then 1 else b * Pow(b, k - 1)
  }

  /** JavaScript's `a % b` on integers: the remainder of the division
      truncated toward zero, which carries the sign of the dividend `a`.
      (`a % 0` is NaN in JavaScript; callers handle that case themselves.) */
  function JsRem(a: int, b: int): int
    requires b != 0
  {
    if a >= 0 then a % Abs(b) else -((-a) % Abs(b))
  }

  // ---------------------------------------------------------------------
  // Euclidean division and divisibility

  /** Quotient and remainder are unique. */
  lemma DivModUnique(x: int, m: int, q: int, r: int)
    requires m != 0 && 0 <= r < Abs(m) && x == q * m + r
    ensures x % m == r && x / m == q
  {
    var q0, r0 := x / m, x % m;
    assert x == q0 * m + r0;
    assert (q - q0) * m == r0 - r;
    if q - q0 >= 1 {
      MulAbsGrows(q - q0, m);
    } else if q - q0 <= -1 {
      MulAbsGrows(q - q0, m);
    }
  }

  lemma MulAbsGrows(a: int, m: int)
    requires a != 0
    ensures Abs(a * m) >= Abs(m)
  {
    var A, M := Abs(a), Abs(m);
    assert Abs(a * m) == A * M;
    assert A * M == (A - 1) * M + M;
    assert (A - 1) * M >= 0;
  }

  lemma DividesIntro(d: int, k: int)
    ensures Divides(d, d * k)
  {
    if d != 0 {
      DivModUnique(d * k, d, k, 0);
    }
  }

  lemma DividesElim(d: int, x: int)
    requires d != 0 && Divides(d, x)
    ensures x == d * (x / d)
  {
  }

  lemma DividesLinear(d: int, x: int, y: int, k: int)
    requires Divides(d, x) && Divides(d, y)
    ensures Divides(d, x + k * y)
  {
    if d != 0 {
      DividesElim(d, x);
      DividesElim(d, y);
      var i, j := x / d, y / d;
      assert x + k * y == d * (i + k * j);
      DividesIntro(d, i + k * j);
    }
  }

  lemma DividesMul(d: int, x: int, k: int)
    requires Divides(d, x)
    ensures Divides(d, x * k)
  {
    DividesIntro(d, 0);
    DividesLinear(d, 0, x, k);
    assert 0 + k * x == x * k;
  }

  lemma DividesTrans(a: int, b: int, c: int)
    requires Divides(a, b) && Divides(b, c)
    ensures Divides(a, c)
  {
    if b == 0 {
      assert c == 0;
      DividesIntro(a, 0);
    } else {
      DividesElim(b, c);
      DividesMul(a, b, c / b);
    }
  }

  /** A positive divisor of a positive number is no larger than it. */
  lemma DividesLe(d: int, x: int)
    requires d > 0 && x > 0 && Divides(d, x)
    ensures d <= x
  {
    DividesElim(d, x);
    var k := x / d;
    assert k >= 1;
    assert d * k == d * (k - 1) + d;
    assert d * (k - 1) >= 0;
  }

  /** Congruence modulo a positive m pins down the Euclidean remainder. */
  lemma ModOfCongruent(m: int, x: int, r: int)
    requires m > 0 && 0 <= r < m && Divides(m, x - r)
    ensures x % m == r
  {
    DividesElim(m, x - r);
    DivModUnique(x, m, (x - r) / m, r);
  }

  lemma CongruentToMod(m: int, x: int)
    requires m > 0
    ensures Divides(m, x - x % m)
  {
    assert x - x % m == m * (x / m);
    DividesIntro(m, x / m);
  }

  /** Reducing one factor first does not change the remainder of a product. */
  lemma ModMulMod(m: int, a: int, k: int)
    requires m > 0
    ensures ((a % m) * k) % m == (a * k) % m
  {
    var r := ((a % m) * k) % m;
    CongruentToMod(m, (a % m) * k);
    CongruentToMod(m, a);
    DividesMul(m, a - a % m, k);
    assert a * k - r == ((a % m) * k - r) + (a - a % m) * k;
    DividesLinear(m, (a % m) * k - r, (a - a % m) * k, 1);
    ModOfCongruent(m, a * k, r);
  }

  // ---------------------------------------------------------------------
  // Powers

  lemma {:induction false} PowAdd(b: int, i: nat, j: nat)
    ensures Pow(b, i + j) == Pow(b, i) * Pow(b, j)
    decreases i
  {
    if i > 0 {
      PowAdd(b, i - 1, j);
      assert Pow(b, i + j) == b * Pow(b, i - 1 + j);
    }
  }

  lemma {:induction false} PowMul(b: int, i: nat, j: nat)
    ensures Pow(b, i * j) == Pow(Pow(b, i), j)
    decreases j
  {
    if j > 0 {
      PowMul(b, i, j - 1);
      assert i * j == i * (j - 1) + i;
      PowAdd(b, i * (j - 1), i);
    }
  }

  lemma PowSquare(b: int, h: nat)
    ensures Pow(b, 2 * h) == Pow(b * b, h)
  {
    PowMul(b, 2, h);
  }

  lemma {:induction false} PowNonneg(b: int, k: nat)
    requires b >= 0
    ensures Pow(b, k) >= 0
    decreases k
  {
    if k > 0 {
      PowNonneg(b, k - 1);
    }
  }

  /** The base of a power may be reduced modulo m first. */
  lemma {:induction false} PowModBase(m: int, b: int, k: nat)
    requires m > 0
    ensures Pow(b % m, k) % m == Pow(b, k) % m
    decreases k
  {
    if k > 0 {
      var r := b % m;
      var pr, pb := Pow(r, k - 1), Pow(b, k - 1);
      assert Pow(r, k) == pr * r;
      assert Pow(b, k) == pb * b;
      ModMulMod(m, pr, r);
      PowModBase(m, b, k - 1);
      ModMulMod(m, pb, r);
      assert pb * r == r * pb;
      ModMulMod(m, b, pb);
      assert b * pb == pb * b;
    }
  }

  /** A power of a number congruent to 1 is congruent to 1. */
  lemma {:induction false} PowCongruentOne(m: int, x: int, k: nat)
    requires Divides(m, x - 1)
    ensures Divides(m, Pow(x, k) - 1)
    decreases k
  {
    if k == 0 {
      DividesIntro(m, 0);
    } else {
      PowCongruentOne(m, x, k - 1);
      DividesMul(m, Pow(x, k - 1) - 1, x);
      assert Pow(x, k) - 1 == (Pow(x, k - 1) - 1) * x + (x - 1);
      DividesLinear(m, (Pow(x, k - 1) - 1) * x, x - 1, 1);
    }
  }

  // ---------------------------------------------------------------------
  // JavaScript's truncated remainder

  lemma JsRemBounds(a: int, b: int)
    requires b != 0
    ensures Abs(JsRem(a, b)) < Abs(b)
    ensures a >= 0 ==> JsRem(a, b) >= 0
    ensures a <= 0 ==> JsRem(a, b) <= 0
  {
  }

  /** `a - a % b` is a multiple of `b`. */
  lemma JsRemCongruent(a: int, b: int)
    requires b != 0
    ensures Divides(b, a - JsRem(a, b))
  {
    var M := Abs(b);
    var t := Abs(a);
    var q: int := t / M;
    assert t - t % M == M * q;
    var s: int := if b > 0 then q else -q;
    assert M * q == b * s;
    var u: int := if a >= 0 then s else -s;
    assert a - JsRem(a, b) == b * u;
    DividesIntro(b, u);
  }

  /** The common divisors of (a, b) and of (b, a % b) coincide. */
  lemma JsRemCommonDivisors(d: int, a: int, b: int)
    requires b != 0
    ensures Divides(d, a) && Divides(d, b) <==> Divides(d, b) && Divides(d, JsRem(a, b))
  {
    JsRemCongruent(a, b);
    if Divides(d, b) {
      DividesTrans(d, b, a - JsRem(a, b));
      if Divides(d, a) {
        DividesLinear(d, a, a - JsRem(a, b), -1);
      }
      if Divides(d, JsRem(a, b)) {
        DividesLinear(d, JsRem(a, b), a - JsRem(a, b), 1);
      }
    }
  }

  /** On a non-negative dividend and a positive divisor JavaScript's `%`
      agrees with the Euclidean remainder. */
  lemma JsRemOfNonneg(a: int, b: int)
    requires a >= 0 && b > 0
    ensures JsRem(a, b) == a % b
  {
  }

  /** The quotient/remainder pair JavaScript's `Math.floor(a / b)` and
      `a % b` produce for a non-negative a and a positive b. */
  lemma JsRemOfPositive(a: int, b: int)
    requires a >= 0 && b > 0
    ensures a / b >= 0
    ensures 0 <= JsRem(a, b) < b
    ensures JsRem(a, b) == a - (a / b) * b
  {
    assert JsRem(a, b) == a % b;
    assert a == (a / b) * b + a % b;
  }

  lemma JsRemIdempotent(a: int, m: int)
    requires m != 0
    ensures JsRem(JsRem(a, m), m) == JsRem(a, m)
  {
    var M := Abs(m);
    if a >= 0 {
      DivModUnique(a % M, M, 0, a % M);
    } else {
      var r := (-a) % M;
      DivModUnique(r, M, 0, r);
    }
  }

  /** On a non-positive dividend the truncated remainder is the negated
      Euclidean remainder of its magnitude (zero included). */
  lemma JsRemOfNonpos(x: int, m: int)
    requires x <= 0 && m != 0
    ensures JsRem(x, m) == -((-x) % Abs(m))
  {
  }

  lemma JsRemMulNonneg(A: int, k: int, m: int)
    requires A >= 0 && m != 0
    ensures JsRem((A % Abs(m)) * k, m) == JsRem(A * k, m)
  {
    var M := Abs(m);
    var r := A % M;
    if k >= 0 {
      ProductSign(r, k);
      ProductSign(A, k);
      ModMulMod(M, A, k);
    } else {
      ProductSign(r, k);
      ProductSign(A, k);
      JsRemOfNonpos(r * k, m);
      JsRemOfNonpos(A * k, m);
      assert -(r * k) == r * (-k);
      assert -(A * k) == A * (-k);
      ModMulMod(M, A, -k);
    }
  }

  /** Reducing one factor with `%` first does not change `%` of the product,
      whatever the signs: both sides carry the sign of the full product. */
  lemma JsRemMulLeft(a: int, c: int, m: int)
    requires m != 0
    ensures JsRem(JsRem(a, m) * c, m) == JsRem(a * c, m)
  {
    if a >= 0 {
      JsRemMulNonneg(a, c, m);
    } else {
      JsRemMulNonneg(-a, -c, m);
      assert JsRem(a, m) * c == ((-a) % Abs(m)) * (-c);
      assert a * c == (-a) * (-c);
    }
  }

  lemma ProductSign(x: int, k: int)
    requires x >= 0
    ensures k >= 0 ==> x * k >= 0
    ensures k < 0 ==> x * k <= 0
  {
  }
}

=== FILE: code_units.dfy ===
/** Strings as JavaScript sees them: sequences of UTF-16 code units. */
module CodeUnits {
  import opened Arithmetic
  import opened ModularPower

  const CodeUnitLimit := 0x1_0000

  /** A value `charCodeAt` returns and `String.fromCharCode` keeps. */
  type CodeUnit = c: int | 0 <= c < CodeUnitLimit

  /** `String.fromCharCode(x)` for one argument: the number is converted
      with ToUint16, which maps NaN to 0 and keeps an integer modulo 2^16
      (the mathematical remainder, never negative). */
  function FromCharCode(x: Num): (c: CodeUnit)
    ensures x.NaN? ==> c == 0
    ensures x.Int? ==> Divides(CodeUnitLimit, x.v - c)
    ensures x.Int? && 0 <= x.v < CodeUnitLimit ==> c == x.v
  {
    if x.NaN? then 0
    else
      CongruentToMod(CodeUnitLimit, x.v);
      x.v % CodeUnitLimit
  }
}

=== FILE: decryptor.dfy ===
/** `decrypt` of components/decryptor.tsx: reject empty input, pick the
    key (the one passed in, else the user's d and n after
    `Number.parseInt`), require the input to parse as a JSON array, and turn
    each element c into the character with code c^d mod n, computed by
    repeated multiplication. */
module Decryptor {
  import opened Wrappers
  import opened ModularPower
  import opened CodeUnits
  import opened KeyGenerator

  /** What `JSON.parse` makes of the input text: an array (of integers; other
      element types are outside the model), or anything else, including a
      syntax error. */
  datatype Parsed = ParsedArray(items: seq<int>) | NotAnArray

  /** The three errors `decrypt` throws. */
  datatype DecryptError = EmptyInput | InvalidKeyNumbers | InvalidFormat

  /** One ciphertext element c becomes the character with code c^d mod n
      (the reference power), through `String.fromCharCode`. */
  function DecryptUnit(c: int, d: int, n: int): CodeUnit {
    FromCharCode(PowRem(c, d, n))
  }

  /** The plaintext of a ciphertext array: one code unit per element, in
      order. */
  function DecryptCodes(items: seq<int>, d: int, n: int): (r: seq<CodeUnit>)
    ensures |r| == |items|
    ensures forall i :: 0 <= i < |items| ==> r[i] == DecryptUnit(items[i], d, n)
    decreases |items|
  {
    if |items| == 0 then []
    else [DecryptUnit(items[0], d, n)] + DecryptCodes(items[1..], d, n)
  }

  /** Decryption also works element by element, so it distributes over
      concatenation. */
  lemma DecryptCodesConcat(s: seq<int>, t: seq<int>, d: int, n: int)
    ensures DecryptCodes(s + t, d, n) == DecryptCodes(s, d, n) + DecryptCodes(t, d, n)
  {
    var whole, left, right := DecryptCodes(s + t, d, n), DecryptCodes(s, d, n), DecryptCodes(t, d, n);
    forall i | 0 <= i < |whole|
      ensures whole[i] == (left + right)[i]
    {
      if i < |s| {
        assert (s + t)[i] == s[i];
        assert (left + right)[i] == left[i];
      } else {
        assert (s + t)[i] == t[i - |s|];
        assert (left + right)[i] == right[i - |s|];
      }
    }
  }

  /** `decrypt`. The result is the string handed to `setDecryptedMessage`,
      or the error the component displays. `input` is the text typed in and
      `parsed` what `JSON.parse` makes of it. */
  method Decrypt(input: string, parsed: Parsed, privateKey: Option<PrivateKey>, customD: Option<int>, customN: Option<int>)
    returns (r: Result<seq<CodeUnit>, DecryptError>)
    ensures |input| == 0 ==> r == Failure(EmptyInput)
    ensures |input| > 0 && privateKey.None? && (customD.None? || customN.None?) ==>
      r == Failure(InvalidKeyNumbers)
    ensures |input| > 0 && (privateKey.Some? || (customD.Some? && customN.Some?)) && parsed.NotAnArray? ==>
      r == Failure(InvalidFormat)
    ensures |input| > 0 && privateKey.Some? && parsed.ParsedArray? ==>
      r == Success(DecryptCodes(parsed.items, privateKey.value.d, privateKey.value.n))
    ensures |input| > 0 && privateKey.None? && customD.Some? && customN.Some? && parsed.ParsedArray? ==>
      r == Success(DecryptCodes(parsed.items, customD.value, customN.value))
    ensures r.Success? ==> parsed.ParsedArray? && |r.value| == |parsed.items|
  {
    if |input| == 0 {
      return Failure(EmptyInput);
    }
    var d, n: int;
    if privateKey.Some? {
      d, n := privateKey.value.d, privateKey.value.n;
    } else {
      if customD.None? || customN.None? {
        return Failure(InvalidKeyNumbers);
      }
      d, n := customD.value, customN.value;
    }
    if parsed.NotAnArray? {
      return Failure(InvalidFormat);
    }
    var encryptedArray := parsed.items;
    var decrypted: seq<CodeUnit> := [];
    var i := 0;
    while i < |encryptedArray|
      invariant 0 <= i <= |encryptedArray|
      invariant |decrypted| == i
      invariant forall j :: 0 <= j < i ==> decrypted[j] == DecryptUnit(encryptedArray[j], d, n)
    {
      var decryptedChar := RepeatedMultiply(encryptedArray[i], d, n);
      decrypted := decrypted + [FromCharCode(decryptedChar)];
      i := i + 1;
    }
    assert decrypted == DecryptCodes(encryptedArray, d, n);
    return Success(decrypted);
  }
}

=== FILE: encryptor.dfy ===
/** `encrypt` of components/encryptor.tsx: reject an empty message, pick
    the key (the one passed in, else the user's e and n after
    `Number.parseInt`), and raise each code unit of the message to the
    power e modulo n by repeated multiplication. */
module Encryptor {
  import opened Wrappers
  import opened ModularPower
  import opened CodeUnits
  import opened KeyGenerator

  /** The two errors `encrypt` throws. */
  datatype EncryptError = EmptyMessage | InvalidKeyNumbers

  /** The ciphertext of a message: one entry per code unit, in order, each
      the reference power of that code unit. */
  function EncryptCodes(message: seq<CodeUnit>, e: int, n: int): (r: seq<Num>)
    ensures |r| == |message|
    ensures forall i :: 0 <= i < |message| ==> r[i] == PowRem(message[i], e, n)
    decreases |message|
  {
    if |message| == 0 then []
    else [PowRem(message[0], e, n)] + EncryptCodes(message[1..], e, n)
  }

  /** Encryption works code unit by code unit, so it distributes over
      concatenation. */
  lemma EncryptCodesConcat(s: seq<CodeUnit>, t: seq<CodeUnit>, e: int, n: int)
    ensures EncryptCodes(s + t, e, n) == EncryptCodes(s, e, n) + EncryptCodes(t, e, n)
  {
    var whole, left, right := EncryptCodes(s + t, e, n), EncryptCodes(s, e, n), EncryptCodes(t, e, n);
    forall i | 0 <= i < |whole|
      ensures whole[i] == (left + right)[i]
    {
      if i < |s| {
        assert (s + t)[i] == s[i];
        assert (left + right)[i] == left[i];
      } else {
        assert (s + t)[i] == t[i - |s|];
        assert (left + right)[i] == right[i - |s|];
      }
    }
  }

  /** With e >= 1 and n >= 1 every entry is an integer in [0, n); with
      e <= 0 the loop never runs and every entry is 1, even for n == 1. */
  lemma EncryptedRange(message: seq<CodeUnit>, e: int, n: int)
    ensures e >= 1 && n >= 1 ==> forall i :: 0 <= i < |message| ==>
      EncryptCodes(message, e, n)[i].Int? && 0 <= EncryptCodes(message, e, n)[i].v < n
    ensures e <= 0 ==> forall i :: 0 <= i < |message| ==> EncryptCodes(message, e, n)[i] == Int(1)
  {
    if e >= 1 && n >= 1 {
      forall i | 0 <= i < |message|
        ensures EncryptCodes(message, e, n)[i].Int? && 0 <= EncryptCodes(message, e, n)[i].v < n
      {
        PowRemRange(message[i], e, n);
      }
    }
  }

  /** `encrypt`. The result is the array handed to `setEncryptedMessage`,
      or the error the component displays. */
  method Encrypt(message: seq<CodeUnit>, publicKey: Option<PublicKey>, customE: Option<int>, customN: Option<int>)
    returns (r: Result<seq<Num>, EncryptError>)
    ensures |message| == 0 ==> r == Failure(EmptyMessage)
    ensures |message| > 0 && publicKey.Some? ==>
      r == Success(EncryptCodes(message, publicKey.value.e, publicKey.value.n))
    ensures |message| > 0 && publicKey.None? && (customE.None? || customN.None?) ==>
      r == Failure(InvalidKeyNumbers)
    ensures |message| > 0 && publicKey.None? && customE.Some? && customN.Some? ==>
      r == Success(EncryptCodes(message, customE.value, customN.value))
    ensures r.Success? ==> |r.value| == |message|
  {
    if |message| == 0 {
      return Failure(EmptyMessage);
    }
    var e, n: int;
    if publicKey.Some? {
      e, n := publicKey.value.e, publicKey.value.n;
    } else {
      if customE.None? || customN.None? {
        return Failure(InvalidKeyNumbers);
      }
      e, n := customE.value, customN.value;
    }
    var encrypted: seq<Num> := [];
    var i := 0;
    while i < |message|
      invariant 0 <= i <= |message|
      invariant |encrypted| == i
      invariant forall j :: 0 <= j < i ==> encrypted[j] == PowRem(message[j], e, n)
    {
      var encryptedChar := RepeatedMultiply(message[i], e, n);
      encrypted := encrypted + [encryptedChar];
      i := i + 1;
    }
    assert encrypted == EncryptCodes(message, e, n);
    return Success(encrypted);
  }
}

=== FILE: euclid.dfy ===
/** The two Euclidean algorithms of lib/rsa-utils.ts (duplicated verbatim in
    components/key-generator.tsx): the iterative `gcd` used as a coprimality
    oracle, and the iterative extended Euclid behind `modInverse`. */
module Euclid {
  import opened Arithmetic

  /** `gcd(a, b)`: while b is not zero, replace (a, b) by (b, a % b); then
      return a. Each recursive call is one iteration of the source's loop,
      and `%` is JavaScript's truncated remainder, so negative arguments
      give the same (possibly negative) answer the source gives.
      The result is a greatest common divisor in the divisibility order:
      it divides both arguments and every common divisor divides it. */
  function Gcd(a: int, b: int): (r: int)
    ensures Divides(r, a) && Divides(r, b)
    ensures forall d :: Divides(d, a) && Divides(d, b) ==> Divides(d, r)
    ensures a >= 0 && b >= 0 ==> r >= 0
    ensures b == 0 ==> r == a
    decreases Abs(b)
  {
    if b == 0 then
      DividesIntro(a, 1);
      DividesIntro(a, 0);
      a
    else
      JsRemBounds(a, b);
      CommonDivisorsStep(a, b);
      Gcd(b, JsRem(a, b))
  }

  lemma CommonDivisorsStep(a: int, b: int)
    requires b != 0
    ensures forall d :: Divides(d, a) && Divides(d, b) <==> Divides(d, b) && Divides(d, JsRem(a, b))
  {
    forall d
      ensures Divides(d, a) && Divides(d, b) <==> Divides(d, b) && Divides(d, JsRem(a, b))
    {
      JsRemCommonDivisors(d, a, b);
    }
  }

  /** Two non-negative numbers that divide each other are equal. */
  lemma MutualDivisorsEqual(x: int, y: int)
    requires x >= 0 && y >= 0 && Divides(x, y) && Divides(y, x)
    ensures x == y
  {
    if x > 0 && y > 0 {
      DividesLe(x, y);
      DividesLe(y, x);
    }
  }

  /** For positive arguments the result does not depend on their order; when
      a < b the first iteration only swaps them. */
  lemma GcdCommutes(a: int, b: int)
    requires a > 0 && b > 0
    ensures Gcd(a, b) == Gcd(b, a)
    ensures Gcd(a, b) > 0
  {
    MutualDivisorsEqual(Gcd(a, b), Gcd(b, a));
  }

  /** Bezout coefficients for the non-negative case, by the recursive
      extended Euclidean algorithm; Euclid's lemma rests on them. */
  lemma {:induction false} Bezout(a: int, b: int) returns (x: int, y: int)
    requires a >= 0 && b >= 0
    ensures a * x + b * y == Gcd(a, b)
    decreases b
  {
    if b == 0 {
      x, y := 1, 0;
    } else {
      var x', y' := Bezout(b, a % b);
      JsRemOfPositive(a, b);
      x, y := y', x' - (a / b) * y';
      BezoutStep(a, b, a / b, a % b, x', y');
    }
  }

  lemma BezoutStep(a: int, b: int, q: int, r: int, x': int, y': int)
    requires r == a - q * b
    ensures a * y' + b * (x' - q * y') == b * x' + r * y'
  {
    assert b * (x' - q * y') == b * x' - (q * b) * y';
    assert r * y' == a * y' - (q * b) * y';
  }

  /** No multiple of m is congruent to 1 modulo m when m > 1. */
  lemma MultipleNotCongruentOne(m: int, k: int)
    requires m > 1
    ensures !Divides(m, m * k - 1)
  {
    DivModUnique(m * k - 1, m, k - 1, m - 1);
  }

  /** The final step of `modInverse`: a coefficient x with x·e ≡ 1 and
      |x| <= m0, shifted by m0 when negative, lands in [0, m0) and is still
      an inverse. */
  lemma NormaliseInverse(m0: int, e: int, x: int)
    requires m0 > 1 && Abs(x) <= m0 && Divides(m0, x * e - 1)
    ensures var d := if x < 0 then x + m0 else x;
      0 <= d < m0 && (e * d) % m0 == 1
  {
    MultipleNotCongruentOne(m0, e);
    MultipleNotCongruentOne(m0, -e);
    assert x != m0;
    assert m0 * (-e) - 1 == -m0 * e - 1;
    assert x != -m0;
    var d := if x < 0 then x + m0 else x;
    DividesIntro(m0, 1);
    DividesLinear(m0, x * e - 1, m0, if x < 0 then e else 0);
    assert e * d - 1 == (x * e - 1) + (if x < 0 then e else 0) * m0;
    ModOfCongruent(m0, e * d, 1);
  }

  /** |x - q·y| = |x| + q·|y| when x and y have opposite signs and q >= 0. */
  lemma AbsOfOppositeSigns(x: int, y: int, q: int)
    requires x * y <= 0 && q >= 0
    ensures Abs(x - q * y) == Abs(x) + q * Abs(y)
    ensures y * (x - q * y) <= 0
  {
    if y > 0 {
      assert x <= 0;
    } else if y < 0 {
      assert x >= 0;
    }
    assert y * (x - q * y) == x * y - q * (y * y);
  }

  /** One iteration of the extended Euclidean loop keeps its invariants:
      the coefficients keep opposite signs, the weighted sum of their sizes
      stays m0, and each coefficient times e stays congruent to its
      remainder. */
  lemma ExtendedStep(m0: int, e: int, a: int, b: int, x: int, y: int)
    requires a > 1 && b > 0
    requires x * y <= 0 && Abs(x) * b + Abs(y) * a == m0
    requires Divides(m0, x * e - a) && Divides(m0, y * e - b)
    ensures var q := a / b; var b' := JsRem(a, b); var y' := x - q * y;
      0 <= b' < b && b' == a - q * b && q >= 0 &&
      y * y' <= 0 && Abs(y) * b' + Abs(y') * b == m0 && Abs(y) <= m0 &&
      Divides(m0, y' * e - b')
  {
    var q := a / b;
    var b' := JsRem(a, b);
    var y' := x - q * y;
    JsRemOfPositive(a, b);
    AbsOfOppositeSigns(x, y, q);
    WeightsStep(Abs(x), Abs(y), a, b, q);
    MulGrowsRight(Abs(y), a);
    CongruenceStep(m0, e, a, b, x, y, q);
  }

  lemma MulGrowsRight(Y: nat, a: int)
    requires a >= 1
    ensures Y <= Y * a
  {
    assert Y * a == Y * (a - 1) + Y;
  }

  lemma CongruenceStep(m0: int, e: int, a: int, b: int, x: int, y: int, q: int)
    requires Divides(m0, x * e - a) && Divides(m0, y * e - b)
    ensures Divides(m0, (x - q * y) * e - (a - q * b))
  {
    DividesLinear(m0, x * e - a, y * e - b, -q);
    assert (x - q * y) * e - (a - q * b) == (x * e - a) + (-q) * (y * e - b);
  }

  lemma WeightsStep(X: int, Y: int, a: int, b: int, q: int)
    ensures Y * (a - q * b) + (X + q * Y) * b == Y * a + X * b
  {
    assert Y * (a - q * b) == Y * a - q * (Y * b);
    assert (X + q * Y) * b == X * b + q * (Y * b);
  }

  /** `modInverse(e, phi)`. The source demands of its caller that e and phi
      be coprime; `phi === 1` answers 0 before the loop. The loop is the
      extended Euclidean algorithm on the remainder pair (a, b) — the
      source reuses the names `e` and `phi` for them — tracking the
      coefficient x of the original e in a and y in b. */
  method ModInverse(e: int, phi: int) returns (d: int)
    requires phi == 1 || (phi > 1 && e >= 1 && Gcd(e, phi) == 1)
    ensures phi == 1 ==> d == 0
    ensures phi > 1 ==> 0 <= d < phi && (e * d) % phi == 1
  {
    var m0 := phi;
    var y, x := 0, 1;
    if phi == 1 {
      return 0;
    }
    var a, b := e, phi;
    DividesIntro(m0, 0);
    DividesIntro(m0, -1);
    assert 1 * e - a == m0 * 0 && 0 * e - b == m0 * -1;
    while a > 1
      invariant a >= 1 && b >= 0
      invariant Gcd(a, b) == 1
      invariant x * y <= 0
      invariant Abs(x) * b + Abs(y) * a == m0
      invariant Abs(x) <= m0
      invariant Divides(m0, x * e - a) && Divides(m0, y * e - b)
      decreases b
    {
      assert b != 0;
      ExtendedStep(m0, e, a, b, x, y);
      var q := a / b;             // Math.floor(e / phi)
      var t := b;
      b := JsRem(a, b);           // phi = e % phi
      a := t;
      t := y;
      y := x - q * y;
      x := t;
    }
    NormaliseInverse(m0, e, x);
    if x < 0 {
      x := x + m0;
    }
    return x;
  }
}

=== FILE: key_generator.dfy ===
/** `generateKeys` of components/key-generator.tsx: obtain two primes
    (drawn at random, or typed in by the user), form n = p * q and
    phi = (p - 1)(q - 1), choose the public exponent e (65537 unless it
    shares a factor with phi, in which case redraw), and derive the private
    exponent d as the inverse of e modulo phi. The component's local copies
    of `isPrime`, `generatePrime`, `gcd` and `modInverse` are textually the
    library's, so the model uses the single definitions of those. */
module KeyGenerator {
  import opened Wrappers
  import opened Arithmetic
  import opened RandomDraws
  import opened Euclid
  import opened Primality

  datatype PublicKey = PublicKey(e: int, n: int)
  datatype PrivateKey = PrivateKey(d: int, n: int)

  /** What a successful run hands on: the key pair and the two primes. */
  datatype GeneratedKeys = GeneratedKeys(publicKey: PublicKey, privateKey: PrivateKey, p: int, q: int)

  /** Auto-generate both primes, or use the user's two inputs after
      `Number.parseInt` (`None` stands for NaN). */
  datatype Mode = Auto | Manual(userP: Option<int>, userQ: Option<int>)

  /** The two errors `generateKeys` throws. */
  datatype KeyGenError = InvalidNumbers | NotPrime

  /** `OutOfDraws` means the supplied draws were used up while a random
      loop was still drawing: the source would go on drawing. */
  datatype KeyGenOutcome = Generated(keys: GeneratedKeys) | Failed(error: KeyGenError) | OutOfDraws

  const DefaultE := 65537

  function Phi(p: int, q: int): int {
    (p - 1) * (q - 1)
  }

  /** What every emitted key pair satisfies: two primes, one modulus n = p * q
      shared by both keys, an e coprime to phi that is either 65537 or a
      value from [3, phi - 1], and a d that inverts e modulo phi (0 when phi
      is 1, the answer `modInverse` gives then). */
  predicate WellFormed(k: GeneratedKeys) {
    var phi := Phi(k.p, k.q);
    var e, d := k.publicKey.e, k.privateKey.d;
    Prime(k.p) && Prime(k.q)
    && k.publicKey.n == k.p * k.q && k.privateKey.n == k.publicKey.n
    && Gcd(e, phi) == 1
    && (e == DefaultE || 3 <= e <= phi - 1)
    && (phi == 1 ==> d == 0)
    && (phi > 1 ==> 0 <= d < phi && (e * d) % phi == 1)
  }

  /** phi of two primes is at least 1, and 1 only for p = q = 2. */
  lemma PhiOfPrimes(p: int, q: int)
    requires Prime(p) && Prime(q)
    ensures Phi(p, q) >= 1
    ensures Phi(p, q) == 1 <==> p == 2 && q == 2
    ensures p != q ==> Phi(p, q) >= 2
  {
    assert Phi(p, q) == (p - 1) * (q - 1);
    if p > 2 {
      assert (p - 1) * (q - 1) >= 2 * (q - 1);
    } else if q > 2 {
      assert (p - 1) * (q - 1) == q - 1;
    }
  }

  /** 65537 is prime, so it fails to be coprime to phi exactly when it
      divides phi; phi is then at least 65537. */
  lemma DefaultExponentCoprime(phi: int)
    requires phi >= 1
    ensures Gcd(DefaultE, phi) != 1 <==> Divides(DefaultE, phi)
    ensures Divides(DefaultE, phi) ==> phi >= DefaultE
  {
    var g := Gcd(DefaultE, phi);
    Prime65537();
    if Divides(DefaultE, phi) {
      DividesLe(DefaultE, phi);
      DividesIntro(DefaultE, 1);
      MutualDivisorsEqual(g, DefaultE);
    }
    if g != 1 {
      assert g != 0;
      PrimeDivisors(DefaultE, g);
    }
  }

  /** The primes auto mode ends up with: p from the first draw whose
      candidate in [100, 1000] is prime, q from the first such draw after
      it; `None` when either search runs off the end of the draws. */
  function DrawnPrimes(draws: seq<real>): (r: Option<(int, int)>)
    ensures r.Some? ==> Prime(r.value.0) && Prime(r.value.1)
  {
    match FirstPrimeIndex(draws, 100, 1000)
    case None => None
    case Some(i) =>
      match FirstPrimeIndex(draws[i + 1..], 100, 1000)
      case None => None
      case Some(j) =>
        assert draws[i + 1..][j] == draws[i + 1 + j];
        Some((Candidate(draws[i], 100, 1000), Candidate(draws[i + 1 + j], 100, 1000)))
  }

  /** `Math.floor(Math.random() * (phi - 3)) + 3`, the redrawn exponent. */
  function ExponentCandidate(r: real, phi: int): int {
    Scale(r, phi - 3, 3)
  }

  /** The position of the first draw whose exponent candidate is coprime to
      phi, if any: the draw at which the exponent loop stops. */
  function FirstCoprimeIndex(draws: seq<real>, phi: int): (r: Option<nat>)
    ensures r.Some? ==> r.value < |draws| && Gcd(ExponentCandidate(draws[r.value], phi), phi) == 1
    ensures r.Some? ==> forall j :: 0 <= j < r.value ==> Gcd(ExponentCandidate(draws[j], phi), phi) != 1
    ensures r.None? ==> forall j :: 0 <= j < |draws| ==> Gcd(ExponentCandidate(draws[j], phi), phi) != 1
    decreases |draws|
  {
    if |draws| == 0 then None
    else if Gcd(ExponentCandidate(draws[0], phi), phi) == 1 then Some(0)
    else match FirstCoprimeIndex(draws[1..], phi)
      case None => None
      case Some(i) => Some(i + 1)
  }

  /** A draw with a coprime candidate and none before it is the first one. */
  lemma FirstCoprimeIndexUnique(draws: seq<real>, phi: int, i: nat)
    requires i < |draws| && Gcd(ExponentCandidate(draws[i], phi), phi) == 1
    requires forall j :: 0 <= j < i ==> Gcd(ExponentCandidate(draws[j], phi), phi) != 1
    ensures FirstCoprimeIndex(draws, phi) == Some(i)
  {
    var r := FirstCoprimeIndex(draws, phi);
    assert r.Some?;
    assert !(r.value < i);
    assert !(r.value > i);
  }

  /** Primes up to 65537 give a phi that 65537 cannot divide: 65537 is
      prime, so it would have to divide p - 1 or q - 1, which are positive
      and smaller. 65537 is then kept as e, even when it exceeds phi. */
  lemma DefaultExponentKept(p: int, q: int)
    requires 2 <= p <= DefaultE && 2 <= q <= DefaultE
    ensures !Divides(DefaultE, Phi(p, q))
  {
    Prime65537();
    if Divides(DefaultE, Phi(p, q)) {
      EuclidsLemma(DefaultE, p - 1, q - 1);
      if Divides(DefaultE, p - 1) {
        DividesLe(DefaultE, p - 1);
      } else {
        DividesLe(DefaultE, q - 1);
      }
    }
  }

  /** The two `generatePrime(100, 1000)` calls of auto mode, p first and
      then q from the draws that follow. `used` counts the draws consumed. */
  method DrawPrimes(draws: seq<real>) returns (r: Option<(int, int)>, used: nat)
    requires AreDraws(draws)
    ensures r == DrawnPrimes(draws)
    ensures r.Some? ==> 100 <= r.value.0 <= 1000 && 100 <= r.value.1 <= 1000
    ensures used <= |draws|
  {
    var drawnP, usedP := GeneratePrime(100, 1000, draws);
    if drawnP.None? {
      return None, usedP;
    }
    assert AreDraws(draws[usedP..]) by {
      forall i | 0 <= i < |draws[usedP..]| ensures IsDraw(draws[usedP..][i]) {
        assert draws[usedP..][i] == draws[usedP + i];
      }
    }
    var drawnQ, usedQ := GeneratePrime(100, 1000, draws[usedP..]);
    if drawnQ.None? {
      return None, usedP + usedQ;
    }
    assert draws[usedP..][usedQ - 1] == draws[usedP + usedQ - 1];
    return Some((drawnP.value, drawnQ.value)), usedP + usedQ;
  }

  /** The choice of e: 65537 first, then `Math.floor(Math.random() * (phi
      - 3)) + 3` until a candidate is coprime to phi. `None` means the
      draws ran out while the source would still be drawing. */
  method ChooseExponent(phi: int, draws: seq<real>) returns (e: Option<int>)
    requires AreDraws(draws)
    ensures Gcd(DefaultE, phi) == 1 ==> e == Some(DefaultE)
    ensures Gcd(DefaultE, phi) != 1 ==>
      var k := FirstCoprimeIndex(draws, phi);
      (k.None? ==> e.None?) && (k.Some? ==> e == Some(ExponentCandidate(draws[k.value], phi)))
    ensures e.Some? ==> Gcd(e.value, phi) == 1
    ensures e.Some? && e.value != DefaultE && phi >= 1 ==> Divides(DefaultE, phi) && 3 <= e.value <= phi - 1
  {
    var candidate := DefaultE;
    var k := 0;
    while Gcd(candidate, phi) != 1
      invariant 0 <= k <= |draws|
      invariant k == 0 ==> candidate == DefaultE
      invariant k > 0 ==> candidate == ExponentCandidate(draws[k - 1], phi) && Gcd(DefaultE, phi) != 1
      invariant forall j :: 0 <= j < k - 1 ==> Gcd(ExponentCandidate(draws[j], phi), phi) != 1
      decreases |draws| - k
    {
      if k == |draws| {
        FirstCoprimeIndexNone(draws, phi);
        return None;
      }
      candidate := ExponentCandidate(draws[k], phi);
      k := k + 1;
    }
    if k > 0 {
      FirstCoprimeIndexUnique(draws, phi, k - 1);
      if phi >= 1 {
        RedrawnExponentRange(phi, draws[k - 1]);
      }
    }
    return Some(candidate);
  }

  /** With no draw's candidate coprime to phi, the search finds nothing. */
  lemma FirstCoprimeIndexNone(draws: seq<real>, phi: int)
    requires forall j :: 0 <= j < |draws| ==> Gcd(ExponentCandidate(draws[j], phi), phi) != 1
    ensures FirstCoprimeIndex(draws, phi).None?
  {
  }

  /** A redraw happens only when 65537 divides phi, so phi is large and the
      redrawn candidate lies in [3, phi - 1]. */
  lemma RedrawnExponentRange(phi: int, r: real)
    requires phi >= 1 && IsDraw(r) && Gcd(DefaultE, phi) != 1
    ensures Divides(DefaultE, phi) && 3 <= ExponentCandidate(r, phi) <= phi - 1
  {
    DefaultExponentCoprime(phi);
    ScaleRange(r, phi - 3, 3);
  }

  /** `generateKeys`. `draws` are the values `Math.random()` returns, in
      order: auto mode draws p, then q, from [100, 1000]; then, only when
      65537 shares a factor with phi, the exponent loop draws e from
      [3, phi - 1] until one is coprime to phi. */
  method GenerateKeys(mode: Mode, draws: seq<real>) returns (out: KeyGenOutcome)
    requires AreDraws(draws)
    ensures mode.Manual? && (mode.userP.None? || mode.userQ.None?) ==> out == Failed(InvalidNumbers)
    ensures (mode.Manual? && mode.userP.Some? && mode.userQ.Some? &&
             !(Prime(mode.userP.value) && Prime(mode.userQ.value))) ==> out == Failed(NotPrime)
    ensures out.Failed? ==> mode.Manual?
    ensures out.Generated? ==> WellFormed(out.keys)
    ensures out.Generated? && mode.Auto? ==> 100 <= out.keys.p <= 1000 && 100 <= out.keys.q <= 1000
    ensures out.Generated? && mode.Manual? ==>
      mode.userP == Some(out.keys.p) && mode.userQ == Some(out.keys.q)
    ensures out.Generated? && out.keys.publicKey.e != DefaultE ==>
      Divides(DefaultE, Phi(out.keys.p, out.keys.q))
    ensures out.Generated? && mode.Auto? ==> out.keys.publicKey.e == DefaultE
    ensures mode.Auto? ==> (out.Generated? <==> DrawnPrimes(draws).Some?)
    ensures mode.Auto? && DrawnPrimes(draws).None? ==> out == OutOfDraws
    ensures mode.Auto? && out.Generated? ==> (out.keys.p, out.keys.q) == DrawnPrimes(draws).value
    ensures (mode.Manual? && mode.userP.Some? && mode.userQ.Some? &&
             Prime(mode.userP.value) && Prime(mode.userQ.value) &&
             Gcd(DefaultE, Phi(mode.userP.value, mode.userQ.value)) != 1) ==>
      var phi := Phi(mode.userP.value, mode.userQ.value);
      var k := FirstCoprimeIndex(draws, phi);
      (k.None? ==> out == OutOfDraws) &&
      (k.Some? ==> out.Generated? && out.keys.publicKey.e == ExponentCandidate(draws[k.value], phi))
    ensures (mode.Manual? && mode.userP.Some? && mode.userQ.Some? &&
             Prime(mode.userP.value) && Prime(mode.userQ.value) &&
             !Divides(DefaultE, Phi(mode.userP.value, mode.userQ.value))) ==>
      out.Generated? && out.keys.publicKey.e == DefaultE
  {
    var p, q: int;
    var next: nat := 0;
    if mode.Auto? {
      var primes, used := DrawPrimes(draws);
      if primes.None? {
        return OutOfDraws;
      }
      p, q := primes.value.0, primes.value.1;
      next := used;
      DefaultExponentKept(p, q);
    } else {
      if mode.userP.None? || mode.userQ.None? {
        return Failed(InvalidNumbers);
      }
      var userP, userQ := mode.userP.value, mode.userQ.value;
      var primeP := IsPrime(userP);
      var primeQ := IsPrime(userQ);
      if !primeP || !primeQ {
        return Failed(NotPrime);
      }
      p, q := userP, userQ;
      assert draws[next..] == draws;
    }

    var n := p * q;
    var phi := (p - 1) * (q - 1);
    PhiOfPrimes(p, q);
    DefaultExponentCoprime(phi);
    assert AreDraws(draws[next..]) by {
      forall i | 0 <= i < |draws[next..]| ensures IsDraw(draws[next..][i]) {
        assert draws[next..][i] == draws[next + i];
      }
    }
    var e := ChooseExponent(phi, draws[next..]);
    if e.None? {
      return OutOfDraws;
    }

    var d := ModInverse(e.value, phi);
    out := Generated(GeneratedKeys(PublicKey(e.value, n), PrivateKey(d, n), p, q));
  }

  lemma Prime101()
    ensures Prime(101)
  {
    forall i | 2 <= i && i * i <= 101
      ensures !Divides(i, 101)
    {
      if i > 10 {
        SquareMonotone(11, i);
      }
    }
    TrialDivisionSuffices(101);
  }

  lemma Prime103()
    ensures Prime(103)
  {
    forall i | 2 <= i && i * i <= 103
      ensures !Divides(i, 103)
    {
      if i > 10 {
        SquareMonotone(11, i);
      }
    }
    TrialDivisionSuffices(103);
  }

  /** The primes 101 and 103, which auto mode can also draw, give
      phi = 10200, yet e stays 65537: the public exponent can exceed phi. */
  method ExponentAbovePhi() returns (out: KeyGenOutcome)
    ensures out.Generated? && out.keys.p == 101 && out.keys.q == 103
    ensures Phi(out.keys.p, out.keys.q) == 10200
    ensures out.keys.publicKey.e == DefaultE > Phi(out.keys.p, out.keys.q)
  {
    Prime101();
    Prime103();
    DefaultExponentKept(101, 103);
    out := GenerateKeys(Manual(Some(101), Some(103)), []);
  }
}

=== FILE: mod_pow.dfy ===
/** Modular exponentiation as lib/rsa-utils.ts computes it (`modPow`,
    square-and-multiply) and as the encryptor and decryptor compute it (a
    naive loop of k multiply-and-reduce steps). Both use JavaScript's `%`,
    which yields NaN for a zero modulus; NaN then absorbs every later
    operation. */
module ModularPower {
  import opened Arithmetic

  /** A JavaScript number restricted to the values these loops can produce:
      an integer, or NaN (from `x % 0`). */
  datatype Num = Int(v: int) | NaN

  /** `a * b`. */
  function Mul(a: Num, b: Num): Num {
    if a.NaN? || b.NaN? then NaN else Int(a.v * b.v)
  }

  /** `a % m`. */
  function Rem(a: Num, m: int): Num {
    if a.NaN? || m == 0 then NaN else Int(JsRem(a.v, m))
  }

  /** The reference value both loops aim at: 1 for a non-positive exponent
      (neither loop runs), NaN for a zero modulus, and otherwise c^k under
      JavaScript's `%` — the ordinary c^k mod n when c >= 0 and n > 0. */
  function PowRem(c: int, k: int, n: int): Num {
    if k <= 0 then Int(1)
    else if n == 0 then NaN
    else Int(JsRem(Pow(c, k), n))
  }

  /** For a non-negative base, a positive modulus and a positive exponent,
      the reference value is the Euclidean c^k mod n and lies in [0, n). */
  lemma PowRemRange(c: int, k: int, n: int)
    requires c >= 0 && n >= 1 && k >= 1
    ensures PowRem(c, k, n) == Int(Pow(c, k) % n)
    ensures 0 <= PowRem(c, k, n).v < n
  {
    PowNonneg(c, k);
    JsRemOfNonneg(Pow(c, k), n);
  }

  /** One more multiply-and-reduce step moves the reference value from
      exponent j to exponent j + 1. */
  lemma PowRemStep(c: int, j: nat, n: int)
    ensures Rem(Mul(PowRem(c, j, n), Int(c)), n) == PowRem(c, j + 1, n)
  {
    if n != 0 {
      if j == 0 {
        assert Pow(c, 1) == c;
      } else {
        JsRemMulLeft(Pow(c, j), c, n);
        assert Pow(c, j + 1) == Pow(c, j) * c;
      }
    }
  }

  /** The inner loop of `encrypt` (components/encryptor.tsx) and of
      `decrypt` (components/decryptor.tsx): start from 1 and apply
      `acc = (acc * c) % n` k times. */
  method RepeatedMultiply(c: int, k: int, n: int) returns (acc: Num)
    ensures acc == PowRem(c, k, n)
    ensures k >= 1 && n == 0 ==> acc.NaN?
    ensures k >= 1 && c >= 0 && n >= 1 ==> acc.Int? && 0 <= acc.v < n && acc.v == Pow(c, k) % n
  {
    acc := Int(1);
    var j := 0;
    while j < k
      invariant 0 <= j <= if k >= 0 then k else 0
      invariant acc == PowRem(c, j, n)
    {
      PowRemStep(c, j, n);
      acc := Rem(Mul(acc, Int(c)), n);
      j := j + 1;
    }
    if k >= 1 && c >= 0 && n >= 1 {
      PowRemRange(c, k, n);
    }
  }

  /** Reducing the base of a power modulo m (with JavaScript's `%`) does not
      change the reduced value of a multiple of that power. */
  lemma {:induction false} JsRemPowBase(a: int, b: int, h: nat, m: int)
    requires m != 0
    ensures JsRem(a * Pow(JsRem(b, m), h), m) == JsRem(a * Pow(b, h), m)
    decreases h
  {
    if h > 0 {
      var r := JsRem(b, m);
      var pr, pb := Pow(r, h - 1), Pow(b, h - 1);
      PowBaseRegroup(a, r, pr, h);
      PowBaseRegroup(a, b, pb, h);
      var ab := a * b;
      var x1, x2 := r * (a * pr), b * (a * pr);
      assert x2 == ab * pr;
      calc {
        JsRem(a * Pow(r, h), m);
        JsRem(x1, m);
        { JsRemMulLeft(b, a * pr, m); }
        JsRem(x2, m);
        JsRem(ab * pr, m);
        { JsRemPowBase(ab, b, h - 1, m); }
        JsRem(ab * pb, m);
        JsRem(a * Pow(b, h), m);
      }
    }
  }

  lemma PowBaseRegroup(a: int, b: int, pb: int, h: nat)
    requires h > 0 && pb == Pow(b, h - 1)
    ensures a * Pow(b, h) == b * (a * pb) == (a * b) * pb
  {
  }

  /** One iteration of `modPow`'s loop keeps result * base^exponent
      unchanged modulo m: an odd exponent moves one factor of base into
      result, and squaring base halves the exponent. */
  lemma SquareStep(result: int, base: int, x: int, m: int)
    requires m != 0 && x > 0
    ensures var result' := if x % 2 == 1 then JsRem(result * base, m) else result;
      JsRem(result' * Pow(JsRem(base * base, m), x / 2), m) == JsRem(result * Pow(base, x), m)
  {
    var h := x / 2;
    var result' := if x % 2 == 1 then JsRem(result * base, m) else result;
    JsRemPowBase(result', base * base, h, m);
    PowSquare(base, h);
    if x % 2 == 1 {
      var p := Pow(base * base, h);
      JsRemMulLeft(result * base, p, m);
      assert x == 2 * h + 1;
      assert Pow(base, 2 * h + 1) == base * Pow(base, 2 * h);
      assert (result * base) * p == result * (base * p);
    } else {
      assert x == 2 * h;
    }
  }

  /** `modPow(base, exponent, modulus)`. A modulus of 1 answers 0 at once;
      otherwise the result is the reference value: NaN for a zero modulus
      and a positive exponent, 1 for a non-positive exponent, and
      base^exponent under JavaScript's `%` otherwise. */
  method ModPow(base: int, exponent: int, modulus: int) returns (r: Num)
    ensures modulus == 1 ==> r == Int(0)
    ensures modulus != 1 ==> r == PowRem(base, exponent, modulus)
    ensures modulus > 1 && base >= 0 && exponent >= 0 ==>
      r.Int? && r.v == Pow(base, exponent) % modulus && 0 <= r.v < modulus
  {
    if modulus == 1 {
      return Int(0);
    }
    var result := Int(1);
    var b := Rem(Int(base), modulus);
    var x := exponent;
    ghost var ran := false;
    if modulus != 0 {
      JsRemPowBase(1, base, if exponent > 0 then exponent else 0, modulus);
    }
    while x > 0
      invariant !ran ==> x == exponent && result == Int(1)
      invariant ran ==> exponent > 0 && x >= 0
      invariant modulus == 0 ==> b.NaN? && (result == Int(1) || result.NaN?)
      invariant modulus == 0 && ran && x == 0 ==> result.NaN?
      invariant modulus != 0 ==> b.Int? && result.Int?
      invariant modulus != 0 && exponent > 0 ==>
        JsRem(result.v * Pow(b.v, x), modulus) == JsRem(Pow(base, exponent), modulus)
      invariant modulus != 0 && ran && x == 0 ==> JsRem(result.v, modulus) == result.v
      decreases x
    {
      if modulus != 0 {
        SquareStep(result.v, b.v, x, modulus);
        if x % 2 == 1 {
          JsRemIdempotent(result.v * b.v, modulus);
        }
      }
      if x % 2 == 1 {
        result := Rem(Mul(result, b), modulus);
      }
      x := x / 2;
      b := Rem(Mul(b, b), modulus);
      ran := true;
    }
    r := result;
    if modulus > 1 && base >= 0 && exponent >= 1 {
      PowRemRange(base, exponent, modulus);
    }
  }

  /** The two ways of computing a power agree on every modulus but 1. With
      modulus 1 and an exponent of 0 or less they differ: `modPow` answers 0
      while the naive loop, which never runs, leaves 1. */
  method CompareWithNaive(c: int, k: int, n: int) returns (fast: Num, naive: Num)
    ensures n != 1 ==> fast == naive
    ensures n == 1 && k >= 1 ==> fast == naive == Int(0)
    ensures n == 1 && k <= 0 ==> fast == Int(0) && naive == Int(1)
  {
    fast := ModPow(c, k, n);
    naive := RepeatedMultiply(c, k, n);
    if n == 1 && k >= 1 {
      assert JsRem(Pow(c, k), 1) == 0;
    }
  }
}

=== FILE: primality.dfy ===
/** Primality: the trial-division test `isPrime` and the rejection sampler
    `generatePrime` of lib/rsa-utils.ts (copied verbatim into
    components/key-generator.tsx), with the facts about primes that RSA
    correctness needs. */
module Primality {
  import opened Wrappers
  import opened Arithmetic
  import opened Euclid
  import opened RandomDraws

  /** The mathematical notion: at least 2, and no divisor strictly between
      1 and itself. */
  predicate Prime(n: int) {
    n >= 2 && forall d :: 2 <= d < n ==> !Divides(d, n)
  }

  /** A divisor d of n with 2 <= d < n has a cofactor n / d that is also a
      divisor of at least 2, and the smaller of the two has its square at
      most n. */
  lemma Cofactor(d: int, n: int)
    requires 2 <= d < n
    ensures Divides(d, n) ==>
      var k := n / d;
      2 <= k && Divides(k, n) && (d * d <= n || k * k <= n)
  {
    if Divides(d, n) {
      var k := n / d;
      DividesElim(d, n);
      CofactorSize(d, k, n);
      DividesIntro(k, d);
      assert k * d == n;
    }
  }

  lemma CofactorSize(d: int, k: int, n: int)
    requires 2 <= d < n && n == d * k
    ensures 2 <= k && (d * d <= n || k * k <= n)
  {
    ProductSign(d, k);
    assert k != 0 && k != 1;
    if d <= k {
      assert d * d <= d * k;
    } else {
      assert k * k <= k * d;
    }
  }

  /** Trial division up to the square root decides primality: a number at
      least 2 with no divisor i, 2 <= i, i * i <= n, is prime. */
  lemma TrialDivisionSuffices(n: int)
    requires n >= 2
    requires forall i :: 2 <= i && i * i <= n ==> !Divides(i, n)
    ensures Prime(n)
  {
    forall d | 2 <= d < n
      ensures !Divides(d, n)
    {
      Cofactor(d, n);
    }
  }

  lemma SquareMonotone(i: int, j: int)
    requires 0 <= i <= j
    ensures i * i <= j * j
  {
    assert i * i <= i * j <= j * j;
  }

  /** The state in which `isPrime`'s loop exits without finding a divisor. */
  lemma TrialDivisionExhausted(num: int, i: int)
    requires num >= 2 && i >= 2 && i * i > num
    requires forall j :: 2 <= j < i ==> !Divides(j, num)
    ensures Prime(num)
  {
    forall j | 2 <= j && j * j <= num
      ensures !Divides(j, num)
    {
      if j >= i {
        SquareMonotone(i, j);
      }
    }
    TrialDivisionSuffices(num);
  }

  /** `isPrime(num)`: false below 2, otherwise true iff no i from 2 up to
      `Math.sqrt(num)` divides num. The bound `i <= Math.sqrt(num)` is
      `i * i <= num` on integers. The answer is exactly primality. */
  method IsPrime(num: int) returns (b: bool)
    ensures b <==> Prime(num)
    ensures num < 2 ==> !b
  {
    if num < 2 {
      return false;
    }
    var i := 2;
    while i * i <= num
      invariant 2 <= i
      invariant forall j :: 2 <= j < i ==> !Divides(j, num)
      decreases num - i
    {
      assert i < num by {
        assert i * i == i * (i - 1) + i;
        assert i * (i - 1) >= i;
      }
      if num % i == 0 {
        assert Divides(i, num);
        return false;
      }
      i := i + 1;
    }
    TrialDivisionExhausted(num, i);
    return true;
  }

  /** The only positive divisors of a prime are 1 and itself. */
  lemma PrimeDivisors(p: int, g: int)
    requires Prime(p) && g > 0 && Divides(g, p)
    ensures g == 1 || g == p
  {
    DividesLe(g, p);
  }

  /** A prime does not divide a different prime. */
  lemma DistinctPrimesCoprime(p: int, q: int)
    requires Prime(p) && Prime(q) && p != q
    ensures !Divides(q, p)
  {
    if q > p {
      DivModUnique(p, q, 0, p);
    }
  }

  /** Euclid's lemma: a prime dividing a product divides one of its
      factors. Proved from the Bezout coefficients of the remainder of a. */
  lemma EuclidsLemma(p: int, a: int, b: int)
    requires Prime(p) && Divides(p, a * b)
    ensures Divides(p, a) || Divides(p, b)
  {
    if !Divides(p, a) {
      var r := a % p;
      CoprimeRemainder(p, a);
      var x, y := Bezout(r, p);
      RemainderProduct(p, a, b);
      CancelCoprime(p, r, b, x, y);
    }
  }

  /** A number a prime does not divide leaves a remainder coprime to it. */
  lemma CoprimeRemainder(p: int, a: int)
    requires Prime(p) && !Divides(p, a)
    ensures Gcd(a % p, p) == 1
  {
    var r := a % p;
    var g := Gcd(r, p);
    assert g != 0;
    DividesLe(g, r);
    PrimeDivisors(p, g);
  }

  /** p | a * b implies p | (a % p) * b. */
  lemma RemainderProduct(p: int, a: int, b: int)
    requires p > 0 && Divides(p, a * b)
    ensures Divides(p, (a % p) * b)
  {
    var r := a % p;
    CongruentToMod(p, a);
    DividesMul(p, a - r, b);
    DividesLinear(p, a * b, (a - r) * b, -1);
    assert a * b + (-1) * ((a - r) * b) == r * b;
  }

  /** If r * x + p * y == 1 and p | r * b, then p | b. */
  lemma CancelCoprime(p: int, r: int, b: int, x: int, y: int)
    requires r * x + p * y == 1 && Divides(p, r * b)
    ensures Divides(p, b)
  {
    DividesIntro(p, b * y);
    DividesMul(p, r * b, x);
    DividesLinear(p, (r * b) * x, p * (b * y), 1);
    assert (r * b) * x + 1 * (p * (b * y)) == b * (r * x + p * y);
  }

  /** Two distinct primes dividing x means their product divides x. */
  lemma DistinctPrimesDivide(p: int, q: int, x: int)
    requires Prime(p) && Prime(q) && p != q
    requires Divides(p, x) && Divides(q, x)
    ensures Divides(p * q, x)
  {
    DividesElim(p, x);
    var t := x / p;
    DistinctPrimesCoprime(p, q);
    EuclidsLemma(q, p, t);
    DividesElim(q, t);
    assert x == (p * q) * (t / q);
    DividesIntro(p * q, t / q);
  }

  lemma NoSmallDivisorOf65537(i: int)
    requires 2 <= i <= 256
    ensures !Divides(i, 65537)
  {
  }

  /** 65537, the public exponent `generateKeys` tries first, is prime. */
  lemma Prime65537()
    ensures Prime(65537)
  {
    forall i | 2 <= i && i * i <= 65537
      ensures !Divides(i, 65537)
    {
      if i > 256 {
        SquareMonotone(257, i);
      }
      NoSmallDivisorOf65537(i);
    }
    TrialDivisionSuffices(65537);
  }

  /** `Math.floor(Math.random() * (max - min + 1)) + min`. */
  function Candidate(r: real, min: int, max: int): int {
    Scale(r, max - min + 1, min)
  }

  /** Every candidate lies in [min, max] when the range is not empty. */
  lemma CandidateInRange(r: real, min: int, max: int)
    requires IsDraw(r) && min <= max
    ensures min <= Candidate(r, min, max) <= max
  {
    ScaleRange(r, max - min + 1, min);
  }

  /** The position of the first draw whose candidate is prime, if any: the
      draw at which `generatePrime` stops. */
  function FirstPrimeIndex(draws: seq<real>, min: int, max: int): (r: Option<nat>)
    ensures r.Some? ==> r.value < |draws| && Prime(Candidate(draws[r.value], min, max))
    ensures r.Some? ==> forall j :: 0 <= j < r.value ==> !Prime(Candidate(draws[j], min, max))
    ensures r.None? ==> forall j :: 0 <= j < |draws| ==> !Prime(Candidate(draws[j], min, max))
    decreases |draws|
  {
    if |draws| == 0 then None
    else if Prime(Candidate(draws[0], min, max)) then Some(0)
    else match FirstPrimeIndex(draws[1..], min, max)
      case None => None
      case Some(i) => Some(i + 1)
  }

  /** A draw with a prime candidate and no prime candidate before it is the
      first one. */
  lemma FirstPrimeIndexUnique(draws: seq<real>, min: int, max: int, i: nat)
    requires i < |draws| && Prime(Candidate(draws[i], min, max))
    requires forall j :: 0 <= j < i ==> !Prime(Candidate(draws[j], min, max))
    ensures FirstPrimeIndex(draws, min, max) == Some(i)
  {
    var r := FirstPrimeIndex(draws, min, max);
    assert r.Some?;
    assert !(r.value < i);
    assert !(r.value > i);
  }

  /** `generatePrime(min, max)`: draw a candidate, and redraw until
      `isPrime` accepts one. The source loops forever when no draw is
      prime; here `None` says that none of the supplied draws was, so the
      source would still be drawing. `used` counts the draws consumed. */
  method GeneratePrime(min: int, max: int, draws: seq<real>) returns (p: Option<int>, used: nat)
    requires AreDraws(draws)
    ensures used <= |draws|
    ensures p.Some? ==> 1 <= used && p.value == Candidate(draws[used - 1], min, max)
    ensures p.Some? ==> Prime(p.value)
    ensures p.Some? && min <= max ==> min <= p.value <= max
    ensures p.Some? ==> forall j :: 0 <= j < used - 1 ==> !Prime(Candidate(draws[j], min, max))
    ensures p.None? ==> used == |draws| && forall j :: 0 <= j < |draws| ==> !Prime(Candidate(draws[j], min, max))
    ensures p.Some? <==> FirstPrimeIndex(draws, min, max).Some?
    ensures p.Some? ==> used == FirstPrimeIndex(draws, min, max).value + 1
  {
    if |draws| == 0 {
      return None, 0;
    }
    var num := Candidate(draws[0], min, max);
    used := 1;
    var accepted := IsPrime(num);
    while !accepted
      invariant 1 <= used <= |draws|
      invariant num == Candidate(draws[used - 1], min, max)
      invariant accepted <==> Prime(num)
      invariant forall j :: 0 <= j < used - 1 ==> !Prime(Candidate(draws[j], min, max))
      decreases |draws| - used
    {
      if used == |draws| {
        return None, used;
      }
      num := Candidate(draws[used], min, max);
      used := used + 1;
      accepted := IsPrime(num);
    }
    if min <= max {
      CandidateInRange(draws[used - 1], min, max);
    }
    FirstPrimeIndexUnique(draws, min, max, used - 1);
    return Some(num), used;
  }
}

=== FILE: random_draws.dfy ===
/** `Math.random()` as an oracle. The model receives the values the random
    source would return, in order, as a finite sequence of draws; an
    operation that needs more draws than it was given reports that it ran
    out instead of looping forever. */
module RandomDraws {

  /** A value `Math.random()` may return: a real in [0, 1). */
  predicate IsDraw(r: real) {
    0.0 <= r < 1.0
  }

  predicate AreDraws(s: seq<real>) {
    forall i :: 0 <= i < |s| ==> IsDraw(s[i])
  }

  /** `Math.floor(r * width) + offset`, the scaling both random loops use. */
  function Scale(r: real, width: int, offset: int): int {
    (r * width as real).Floor + offset
  }

  lemma RealMulSigns(a: real, b: real)
    requires a >= 0.0 && b >= 0.0
    ensures a * b >= 0.0
    ensures a > 0.0 && b > 0.0 ==> a * b > 0.0
  {
  }

  /** A scaled draw falls in [offset, offset + width) when the width is
      positive; with a width of zero or less it falls in
      [offset + width, offset] instead. */
  lemma ScaleRange(r: real, width: int, offset: int)
    requires IsDraw(r)
    ensures width >= 1 ==> offset <= Scale(r, width, offset) < offset + width
    ensures width <= 0 ==> offset + width <= Scale(r, width, offset) <= offset
  {
    var w := width as real;
    var x := r * w;
    if width >= 1 {
      RealMulSigns(r, w);
      RealMulSigns(1.0 - r, w);
      assert w - x == (1.0 - r) * w;
    } else {
      RealMulSigns(1.0 - r, -w);
      RealMulSigns(r, -w);
      assert x - w == (1.0 - r) * (-w);
      assert x == -(r * (-w));
    }
  }
}

=== FILE: round_trip.dfy ===
/** What the three components promise together: a message encrypted with a
    generated public key comes back from the decryptor unchanged, provided
    the two primes differ and every code unit is below n. With equal primes,
    which auto mode can draw, the promise fails. */
module RoundTrip {
  import opened Arithmetic
  import opened Primality
  import opened RsaTheory
  import opened ModularPower
  import opened CodeUnits
  import opened KeyGenerator
  import opened Encryptor
  import opened Decryptor
  import opened Wrappers

  /** The encryptor's output as `JSON.parse` reads it back into the
      decryptor: every entry is an integer here. */
  function AsParsed(cs: seq<Num>): Parsed
    requires forall i :: 0 <= i < |cs| ==> cs[i].Int?
  {
    ParsedArray(seq(|cs|, i requires 0 <= i < |cs| => cs[i].v))
  }

  /** A product congruent to 1 modulo phi > 1 has no zero factor. */
  lemma NonzeroFactors(e: int, d: int, phi: int)
    requires phi > 1 && (e * d) % phi == 1
    ensures e != 0 && d != 0
  {
    assert e == 0 ==> e * d == 0;
    assert d == 0 ==> e * d == 0;
  }

  /** For distinct primes p and q and exponents inverse to each other
      modulo (p-1)(q-1), the naive loops return every m in [0, p*q):
      encrypting gives an integer c in [0, n), and decrypting c gives m. */
  lemma PowerRoundTrip(p: int, q: int, e: int, d: int, m: int)
    requires Prime(p) && Prime(q) && p != q
    requires e >= 0 && d >= 0 && (e * d) % Phi(p, q) == 1
    requires 0 <= m < p * q
    ensures PowRem(m, e, p * q).Int?
    ensures 0 <= PowRem(m, e, p * q).v < p * q
    ensures PowRem(PowRem(m, e, p * q).v, d, p * q) == Int(m)
  {
    var n := p * q;
    PhiOfPrimes(p, q);
    NonzeroFactors(e, d, Phi(p, q));
    PowRemRange(m, e, n);
    var c := Pow(m, e) % n;
    PowRemRange(c, d, n);
    RsaCorrect(p, q, e, d, m);
  }

  /** One code unit below n survives encryption and decryption with a
      well-formed pair of distinct primes. */
  lemma UnitRoundTrip(g: GeneratedKeys, m: CodeUnit)
    requires WellFormed(g) && g.p != g.q && m < g.publicKey.n
    ensures PowRem(m, g.publicKey.e, g.publicKey.n).Int?
    ensures DecryptUnit(PowRem(m, g.publicKey.e, g.publicKey.n).v, g.privateKey.d, g.privateKey.n) == m
  {
    PhiOfPrimes(g.p, g.q);
    PowerRoundTrip(g.p, g.q, g.publicKey.e, g.privateKey.d, m);
  }

  /** Decrypting, with the private key of a well-formed pair of distinct
      primes, the encryption under its public key returns the message,
      whenever every code unit is below n. */
  lemma KeysRoundTrip(g: GeneratedKeys, message: seq<CodeUnit>)
    requires WellFormed(g) && g.p != g.q
    requires forall i :: 0 <= i < |message| ==> message[i] < g.publicKey.n
    ensures forall i :: 0 <= i < |message| ==> EncryptCodes(message, g.publicKey.e, g.publicKey.n)[i].Int?
    ensures DecryptCodes(AsParsed(EncryptCodes(message, g.publicKey.e, g.publicKey.n)).items,
                         g.privateKey.d, g.privateKey.n) == message
  {
    var e, d, n := g.publicKey.e, g.privateKey.d, g.publicKey.n;
    var enc := EncryptCodes(message, e, n);
    forall i | 0 <= i < |message|
      ensures enc[i].Int? && DecryptUnit(enc[i].v, d, n) == message[i]
    {
      UnitRoundTrip(g, message[i]);
    }
    DecryptEach(enc, message, d, n);
  }

  /** Decrypting an array entry by entry gives back the message when each
      entry does. */
  lemma DecryptEach(enc: seq<Num>, message: seq<CodeUnit>, d: int, n: int)
    requires |enc| == |message|
    requires forall i :: 0 <= i < |enc| ==> enc[i].Int? && DecryptUnit(enc[i].v, d, n) == message[i]
    ensures DecryptCodes(AsParsed(enc).items, d, n) == message
  {
    var items := AsParsed(enc).items;
    assert forall i :: 0 <= i < |items| ==> items[i] == enc[i].v;
    var dec := DecryptCodes(items, d, n);
    assert forall i :: 0 <= i < |message| ==> dec[i] == message[i];
  }

  /** The full path through both components: encrypt a non-empty message
      with the generated public key, hand the displayed array (its text
      `text`, never empty) to the decryptor with the generated private key,
      and get the message back. */
  method EncryptThenDecrypt(g: GeneratedKeys, message: seq<CodeUnit>, text: string)
    returns (encrypted: Result<seq<Num>, EncryptError>, decrypted: Result<seq<CodeUnit>, DecryptError>)
    requires WellFormed(g) && g.p != g.q
    requires forall i :: 0 <= i < |message| ==> message[i] < g.publicKey.n
    requires |message| > 0 && |text| > 0
    ensures encrypted.Success? && |encrypted.value| == |message|
    ensures decrypted == Success(message)
  {
    encrypted := Encrypt(message, Some(g.publicKey), None, None);
    KeysRoundTrip(g, message);
    decrypted := Decrypt(text, AsParsed(encrypted.value), Some(g.privateKey), None, None);
  }

  /** With p == q (auto mode draws the two primes independently, so this
      happens) the message whose code unit is p itself does not survive:
      for p = 2 the private exponent is 0 and every character decrypts to
      code 1, and for larger p it decrypts to code 0. */
  lemma EqualPrimesLoseMessage(g: GeneratedKeys)
    requires WellFormed(g) && g.p == g.q && g.p < CodeUnitLimit
    ensures EncryptCodes([g.p as CodeUnit], g.publicKey.e, g.publicKey.n)[0].Int?
    ensures DecryptCodes([EncryptCodes([g.p as CodeUnit], g.publicKey.e, g.publicKey.n)[0].v],
                         g.privateKey.d, g.privateKey.n) != [g.p as CodeUnit]
    ensures g.p == 2 ==>
      DecryptCodes([EncryptCodes([g.p as CodeUnit], g.publicKey.e, g.publicKey.n)[0].v],
                   g.privateKey.d, g.privateKey.n) == [1 as CodeUnit]
    ensures g.p > 2 ==>
      DecryptCodes([EncryptCodes([g.p as CodeUnit], g.publicKey.e, g.publicKey.n)[0].v],
                   g.privateKey.d, g.privateKey.n) == [0 as CodeUnit]
  {
    var p, e, d, n := g.p, g.publicKey.e, g.privateKey.d, g.publicKey.n;
    PhiOfPrimes(p, p);
    var c := SquareModulusPower(p, e, n);
    var dec := DecryptCodes([c], d, n);
    if p == 2 {
      assert d == 0;
      assert dec[0] == FromCharCode(Int(1));
    } else {
      SquareModulusLoses(p, e, d, c);
      assert dec[0] == FromCharCode(Int(0));
    }
  }

  /** Encrypting p under a modulus p * p gives the integer p^e mod p^2. */
  lemma SquareModulusPower(p: int, e: int, n: int) returns (c: int)
    requires p >= 2 && n == p * p && e >= 1
    ensures PowRem(p, e, n) == Int(c) && c == Pow(p, e) % n
  {
    PowRemRange(p, e, n);
    c := Pow(p, e) % n;
  }

  /** For p >= 3 and e * d congruent to 1 modulo (p-1)^2 with e >= 3,
      decrypting the encryption of p modulo p^2 yields 0. */
  lemma SquareModulusLoses(p: int, e: int, d: int, c: int)
    requires p >= 3 && e >= 3 && d >= 0
    requires (e * d) % Phi(p, p) == 1
    requires c == Pow(p, e) % (p * p)
    ensures PowRem(c, d, p * p) == Int(0)
  {
    SquareOfAtLeastTwo(p - 1);
    NonzeroFactors(e, d, Phi(p, p));
    ProductAtLeastTwo(e, d);
    RepeatedPrimeLosesMessage(p, e, d);
    PowRemRange(c, d, p * p);
  }

  lemma SquareOfAtLeastTwo(x: int)
    requires x >= 2
    ensures x * x > 1
  {
    assert x * x >= 2 * x;
  }

  lemma ProductAtLeastTwo(e: int, d: int)
    requires e >= 3 && d >= 1
    ensures e * d >= 2
  {
    assert e * d == e * (d - 1) + e;
    ProductSign(e, d - 1);
  }
}

=== FILE: rsa_theory.dfy ===
/** The number theory behind textbook RSA (RSAEP/RSADP of section 5.1 of
    RFC 8017, without its range check): Fermat's little theorem, proved
    through the binomial theorem, and the correctness of decryption for a
    modulus that is the product of two distinct primes. */
module RsaTheory {
  import opened Arithmetic
  import opened Primality

  /** Binomial coefficients by Pascal's rule. */
  function Binom(n: nat, k: nat): nat
    decreases n
  {
    if k == 0 then 1
    else if n == 0 then 0
    else Binom(n - 1, k - 1) + Binom(n - 1, k)
  }

  lemma {:induction false} BinomAbove(n: nat, k: nat)
    requires k > n
    ensures Binom(n, k) == 0
    decreases n
  {
    if n > 0 {
      BinomAbove(n - 1, k - 1);
      BinomAbove(n - 1, k);
    }
  }

  lemma {:induction false} BinomDiagonal(n: nat)
    ensures Binom(n, n) == 1
    decreases n
  {
    if n > 0 {
      BinomDiagonal(n - 1);
      BinomAbove(n - 1, n);
    }
  }

  /** The absorption identity k * C(n, k) == n * C(n - 1, k - 1). */
  lemma {:induction false} Absorption(n: nat, k: nat)
    requires n >= 1 && k >= 1
    ensures k * Binom(n, k) == n * Binom(n - 1, k - 1)
    decreases n
  {
    if n == 1 {
      if k > 1 {
        BinomAbove(0, k - 1);
        BinomAbove(0, k);
      }
    } else if k == 1 {
      Absorption(n - 1, 1);
      assert Binom(n, 1) == Binom(n - 1, 0) + Binom(n - 1, 1);
    } else {
      Absorption(n - 1, k);
      Absorption(n - 1, k - 1);
      var b1, b2 := Binom(n - 1, k - 1), Binom(n - 1, k);
      var c1, c2 := Binom(n - 2, k - 2), Binom(n - 2, k - 1);
      assert Binom(n, k) == b1 + b2;
      assert b1 == c1 + c2;
      AbsorptionStep(n, k, Binom(n, k), b1, b2, c1, c2);
    }
  }

  lemma AbsorptionStep(n: int, k: int, b: int, b1: int, b2: int, c1: int, c2: int)
    requires b == b1 + b2 && b1 == c1 + c2
    requires k * b2 == (n - 1) * c2 && (k - 1) * b1 == (n - 1) * c1
    ensures k * b == n * b1
  {
    calc {
      k * b;
      k * b1 + k * b2;
      (k - 1) * b1 + b1 + (n - 1) * c2;
      (n - 1) * c1 + (n - 1) * c2 + b1;
      (n - 1) * b1 + b1;
      n * b1;
    }
  }

  /** A prime p divides C(p, k) for 0 < k < p. */
  lemma PrimeDividesBinom(p: int, k: nat)
    requires Prime(p) && 1 <= k < p
    ensures Divides(p, Binom(p, k))
  {
    Absorption(p, k);
    DividesIntro(p, Binom(p - 1, k - 1));
    EuclidsLemma(p, k, Binom(p, k));
    DivModUnique(k, p, 0, k);
  }

  /** The first j terms of the binomial expansion of (a + 1)^n:
      the sum of C(n, i) * a^i for i < j. */
  function BinomSum(n: nat, a: int, j: nat): int
    decreases j
  {
    if j == 0 then 0 else BinomSum(n, a, j - 1) + Binom(n, j - 1) * Pow(a, j - 1)
  }

  lemma {:induction false} BinomSumPascal(n: nat, a: int, j: nat)
    ensures BinomSum(n + 1, a, j + 1) == a * BinomSum(n, a, j) + BinomSum(n, a, j + 1)
    decreases j
  {
    if j > 0 {
      BinomSumPascal(n, a, j - 1);
      var s, t := BinomSum(n, a, j - 1), BinomSum(n, a, j);
      var c0, c1 := Binom(n, j - 1), Binom(n, j);
      var pw := Pow(a, j - 1);
      assert BinomSum(n + 1, a, j) == a * s + t;
      assert Binom(n + 1, j) == c0 + c1;
      assert Pow(a, j) == a * pw;
      assert t == s + c0 * pw;
      PascalAlgebra(a, s, t, c0, c1, pw);
    }
  }

  lemma PascalAlgebra(a: int, s: int, t: int, c0: int, c1: int, pw: int)
    requires t == s + c0 * pw
    ensures a * s + t + (c0 + c1) * (a * pw) == a * t + (t + c1 * (a * pw))
  {
    assert (c0 + c1) * (a * pw) == a * (c0 * pw) + c1 * (a * pw);
    assert a * t == a * s + a * (c0 * pw);
  }

  /** The binomial theorem for (a + 1)^n. */
  lemma {:induction false} BinomialTheorem(a: int, n: nat)
    ensures Pow(a + 1, n) == BinomSum(n, a, n + 1)
    decreases n
  {
    if n > 0 {
      BinomialTheorem(a, n - 1);
      BinomSumPascal(n - 1, a, n);
      BinomAbove(n - 1, n);
      var s, top := BinomSum(n - 1, a, n), BinomSum(n - 1, a, n + 1);
      assert top == s + Binom(n - 1, n) * Pow(a, n);
      assert Pow(a + 1, n) == (a + 1) * Pow(a + 1, n - 1);
      TheoremStep(a, s, top, Binom(n - 1, n), Pow(a, n), Pow(a + 1, n), BinomSum(n, a, n + 1));
    }
  }

  lemma TheoremStep(a: int, s: int, top: int, zero: int, pw: int, power: int, sum: int)
    requires zero == 0 && top == s + zero * pw
    requires power == (a + 1) * s && sum == a * s + top
    ensures power == sum
  {
  }

  /** All terms but the first and last of the expansion of (a + 1)^p are
      multiples of p. */
  lemma {:induction false} InnerTermsVanish(p: int, a: int, j: nat)
    requires Prime(p) && 1 <= j <= p
    ensures Divides(p, BinomSum(p, a, j) - 1)
    decreases j
  {
    if j == 1 {
      DividesIntro(p, 0);
    } else {
      InnerTermsVanish(p, a, j - 1);
      PrimeDividesBinom(p, j - 1);
      DividesMul(p, Binom(p, j - 1), Pow(a, j - 1));
      DividesLinear(p, BinomSum(p, a, j - 1) - 1, Binom(p, j - 1) * Pow(a, j - 1), 1);
    }
  }

  /** (a + 1)^p is congruent to a^p + 1 modulo a prime p. */
  lemma FreshmansDream(p: int, a: int)
    requires Prime(p)
    ensures Divides(p, Pow(a + 1, p) - Pow(a, p) - 1)
  {
    BinomialTheorem(a, p);
    BinomDiagonal(p);
    InnerTermsVanish(p, a, p);
    assert BinomSum(p, a, p + 1) == BinomSum(p, a, p) + Pow(a, p);
  }

  /** Fermat's little theorem: a^p is congruent to a modulo a prime p. */
  lemma {:induction false} Fermat(p: int, a: nat)
    requires Prime(p)
    ensures Divides(p, Pow(a, p) - a)
    decreases a
  {
    if a == 0 {
      assert Pow(0, p) == 0 * Pow(0, p - 1);
      DividesIntro(p, 0);
    } else {
      Fermat(p, a - 1);
      FreshmansDream(p, a - 1);
      DividesLinear(p, Pow(a, p) - Pow(a - 1, p) - 1, Pow(a - 1, p) - (a - 1), 1);
    }
  }

  /** For a not divisible by p, a^(p-1) is congruent to 1. */
  lemma FermatUnit(p: int, a: nat)
    requires Prime(p) && !Divides(p, a)
    ensures Divides(p, Pow(a, p - 1) - 1)
  {
    Fermat(p, a);
    assert Pow(a, p) - a == a * (Pow(a, p - 1) - 1);
    EuclidsLemma(p, a, Pow(a, p - 1) - 1);
  }

  /** m^(1 + k(p-1)) is congruent to m modulo a prime p, for every m >= 0,
      including the multiples of p. */
  lemma RsaPrimeFactor(p: int, m: nat, k: nat)
    requires Prime(p)
    ensures Divides(p, Pow(m, 1 + k * (p - 1)) - m)
  {
    var t := k * (p - 1);
    assert Pow(m, 1 + t) == m * Pow(m, t);
    assert Pow(m, 1 + t) - m == m * (Pow(m, t) - 1);
    if Divides(p, m) {
      DividesMul(p, m, Pow(m, t) - 1);
    } else {
      UnitPowerCongruentOne(p, m, k);
      DividesMul(p, Pow(m, t) - 1, m);
    }
  }

  /** For m not divisible by p, m^(k(p-1)) is congruent to 1. */
  lemma UnitPowerCongruentOne(p: int, m: nat, k: nat)
    requires Prime(p) && !Divides(p, m)
    ensures Divides(p, Pow(m, k * (p - 1)) - 1)
  {
    FermatUnit(p, m);
    PowCongruentOne(p, Pow(m, p - 1), k);
    PowMul(m, p - 1, k);
    assert (p - 1) * k == k * (p - 1);
  }

  /** RSA correctness: with n = p * q for distinct primes and
      e * d congruent to 1 modulo phi = (p-1)(q-1), decrypting the
      encryption of any 0 <= m < n gives back m. */
  lemma RsaCorrect(p: int, q: int, e: int, d: int, m: int)
    requires Prime(p) && Prime(q) && p != q
    requires e >= 0 && d >= 0 && (e * d) % ((p - 1) * (q - 1)) == 1
    requires 0 <= m < p * q
    ensures Pow(Pow(m, e) % (p * q), d) % (p * q) == m
  {
    var n := p * q;
    ProductSign(e, d);
    var ed: nat := e * d;
    MessagePowCongruent(p, q, ed, m);
    ModOfCongruent(n, Pow(m, ed), m);
    PowModBase(n, Pow(m, e), d);
    PowMul(m, e, d);
  }

  /** m^ed is congruent to m modulo p * q. */
  lemma MessagePowCongruent(p: int, q: int, ed: nat, m: nat)
    requires Prime(p) && Prime(q) && p != q
    requires ed % ((p - 1) * (q - 1)) == 1
    ensures Divides(p * q, Pow(m, ed) - m)
  {
    var kp, kq := ExponentDecomposition(p, q, ed);
    RsaPrimeFactor(p, m, kq);
    RsaPrimeFactor(q, m, kp);
    DistinctPrimesDivide(p, q, Pow(m, ed) - m);
  }

  /** An exponent congruent to 1 modulo (p-1)(q-1) is 1 plus a multiple of
      p - 1 and 1 plus a multiple of q - 1. */
  lemma ExponentDecomposition(p: int, q: int, ed: int) returns (kp: nat, kq: nat)
    requires p >= 2 && q >= 2 && ed >= 0 && ed % ((p - 1) * (q - 1)) == 1
    ensures ed == 1 + kq * (p - 1)
    ensures ed == 1 + kp * (q - 1)
  {
    var x, y := p - 1, q - 1;
    PositiveProduct(x, y);
    var k := QuotientOfOne(ed, x * y);
    kq := NatProduct(k, y);
    kp := NatProduct(k, x);
    Regroup(x, y, k);
  }

  lemma PositiveProduct(x: int, y: int)
    requires x >= 1 && y >= 1
    ensures x * y >= 1
  {
    assert x * y == x * (y - 1) + x;
    ProductSign(x, y - 1);
  }

  /** A non-negative x with remainder 1 modulo m is 1 plus a multiple of m. */
  lemma QuotientOfOne(x: int, m: int) returns (k: nat)
    requires x >= 0 && m >= 1 && x % m == 1
    ensures x == m * k + 1
  {
    k := x / m;
  }

  lemma NatProduct(x: nat, y: int) returns (z: nat)
    requires y >= 0
    ensures z == x * y
  {
    ProductSign(x, y);
    z := x * y;
  }

  lemma Regroup(x: int, y: int, k: int)
    ensures (x * y) * k == (k * y) * x
    ensures (x * y) * k == (k * x) * y
  {
  }

  /** With p == q the round trip fails: the message p itself comes back as
      0 whenever e * d >= 2. */
  lemma RepeatedPrimeLosesMessage(p: int, e: int, d: int)
    requires p >= 2 && e >= 0 && d >= 0 && e * d >= 2
    ensures Pow(Pow(p, e) % (p * p), d) % (p * p) == 0
    ensures Pow(Pow(p, e) % (p * p), d) % (p * p) != p
  {
    var n := p * p;
    PowModBase(n, Pow(p, e), d);
    PowMul(p, e, d);
    PowAdd(p, 2, e * d - 2);
    assert Pow(p, 2) == n;
    DividesIntro(n, Pow(p, e * d - 2));
    DivModUnique(n * Pow(p, e * d - 2), n, Pow(p, e * d - 2), 0);
  }
}

=== FILE: wrappers.dfy ===
/** Optional values and success/failure results. */
module Wrappers {

  /** A value that may be absent. `Number.parseInt` results use `None` for
      NaN. */
  datatype Option<+T> = None | Some(value: T)

  /** The outcome of an operation that throws on bad input: `Failure`
      carries what the source reports in its caught `Error`. */
  datatype Result<+T, +E> = Success(value: T) | Failure(error: E)
}
